=== FILE: README.md ===
# Model selection core of the AutoML engine, in Dafny

The engine chooses a machine-learning model for a tabular data set in two
steps, and this project models both.

* **Meta-feature extractor** (`BaseMetaExtractor` and its classification and
  regression variants). It describes a data set by a dictionary of
  meta-features:
  * structural counts: examples, features, numeric and non-numeric columns,
    two-valued columns, and columns and rows that hold at least one value;
  * descriptors of the target (class count, imbalance, spread);
  * distribution statistics;
  * landmarks: the cross-validated score (`lp i`) and duration (`lt i`) of a
    few cheap models on a sample of at most 500 rows.

  Each step merges its keys into the dictionary, overwriting what is there.
* **Time-boxed evaluator** (`BaseEvaluator` and its classification and
  regression variants). It holds a fixed catalog of 19 model types. Without a
  time limit it evaluates them in catalog order. With a limit it first sorts
  them by the score that pretrained meta-models predict from the
  meta-features, highest first.
  * The evaluation loop cross-validates the candidates one by one, appending
    (model, score, time) rows to a table. A process alarm can interrupt it;
    the timeout is then absorbed.
  * Afterwards, however the loop ended, the table's scores are normalised.
    Regression turns negated mean squared errors into `1 - rmse / max(rmse) + 1e-6`.
  * The table is then ranked into relative landmarks. The ordered candidates
    are zipped with those ranks, and the best model is the entry with the
    highest rank.

## How the model is built

* `common.dfy` (`Common`) holds the shared values:
  * `Num`, a float that may be NaN;
  * `Duration`, a non-negative real;
  * `Option` and `Result`;
  * `Candidate`, a model type and its keyword arguments;
  * `CountIf`, which counts the elements that satisfy a predicate (pandas' boolean `.sum()`).
* `ranking.dfy` (`Ranking`) is Python's stable `sorted(..., reverse=True)`
  over positions. It is proved ordered, a permutation, and to put the
  earliest maximum first.
* `metadata_extraction.dfy` (`MetaFeatures`) holds:
  * tables of columns whose cells may be missing;
  * the counts and the feature maps;
  * the landmark keys and the row sample;
  * the `MetaExtractor` class, whose `metaData` map field its methods update
    in place. The landmark loop is a `while` loop with its invariants, in `MergeLandmarks`.
* `model_selection.dfy` (`Selection`) holds:
  * the catalogs and the predicted order;
  * the run as specification functions (`FirstFailure`, `CompletedCount`, `StopOf`);
  * the normaliser, `zip` and the best-model choice;
  * the `Evaluator` class (record table and relative landmarks as fields,
    updated by `EvaluateModels`);
  * an `Alarm` object standing for the process-wide `SIGALRM` timer.

Calls into code outside the model are parameters:
* cross-validation of a candidate (a score and a duration, or an error);
* each meta-model's `predict` on the one-row meta-data frame (a score, or the error it raises);
* `np.sqrt`;
* the relative-landmark ranking `get_rls`;
* the cross-validation of a landmark model;
* the distribution and target statistics;
* the rows the random sample draws.

The alarm is a number `alarmAfter`. When a time limit is set, the alarm fires
while the candidate at that position of the order is being evaluated. Any
count from 0 upwards is allowed, so the loop can be cut before the first
candidate completes.

Some behaviours of the code are easy to misread; the model follows the code:
* The `time_limit` docstring (model_selection.py:35-38) reads as a budget for
  the evaluations, but nothing guarantees one of them finishes. The alarm can
  fire during the first candidate, so a run may record nothing
  (`Selection.EarlyAlarmRecordsNothing`).
* `NFeaturesWithNANs` and `NExamplesWithNANs` count columns and rows that
  hold at least one *present* value, because `count()` skips missing cells.
  They are not counts of missing ones.
* Calling `evaluate_models` again does not clear the table. The new rows are
  appended after the old ones (`Selection.RunAppendsOrderedPrefix`), and
  `zip` pairs the new order with the ranks of the table's first rows.
  Regression normalisation of an already normalised (positive) score yields
  NaN (`Selection.RenormalisedRowsBecomeNaN`).

## Model

| member | source | states |
|---|---|---|
| Common.CountIf | automl/model_selection/metadata_extraction.py:27-29 | a boolean `.sum()` is at most the length, equals it exactly when every element qualifies, and is 0 exactly when none does |
| Common.CountComplement | automl/model_selection/metadata_extraction.py:25-26 | counting a predicate and its complement covers every element once |
| Ranking.DescOrder | automl/model_selection/model_selection.py:107 | the stable descending order lists each position once; earlier entries have a larger key, or an equal key and a smaller position |
| Ranking.PickPermutes | automl/model_selection/model_selection.py:107 | reordering items by the stable descending order is a permutation of them |
| Ranking.FirstIsEarliestMax | automl/model_selection/model_selection.py:79-80 | the first position of the order holds a maximal key, and no earlier position holds that maximum |
| MetaFeatures.Unique | automl/model_selection/metadata_extraction.py:27 | the distinct cells of a column, a missing cell counting as a value: same members, no repeats, no longer than the column |
| MetaFeatures.UniqueCountsDistinct | automl/model_selection/metadata_extraction.py:27 | `nunique(dropna=False)` equals the size of the set of cells |
| MetaFeatures.BinaryMeansTwoDistinctValues | automl/model_selection/metadata_extraction.py:27 | a column is binary exactly when it holds two distinct cells (missing included) |
| MetaFeatures.CountStructure | automl/model_selection/metadata_extraction.py:24-29 | examples and features are the frame's shape; the numeric count is the number of numeric columns and the non-numeric count the number of the others, together the feature count; the binary count is the number of columns with exactly two distinct cells; the column count is the number of columns with a present cell; the row count is the number of rows with a present cell; each is bounded by the shape |
| MetaFeatures.NumericalCountsNumericColumns | automl/model_selection/metadata_extraction.py:25-26 | `select_dtypes(include=[np.number])` counts exactly the numeric columns and `exclude` exactly the others |
| MetaFeatures.BinaryCountIsTwoValuedColumns | automl/model_selection/metadata_extraction.py:27 | the boolean sum over `nunique(dropna=False) == 2` equals the size of the set of such column positions |
| MetaFeatures.ColumnsWithValuesCount | automl/model_selection/metadata_extraction.py:28 | `(count() > 0).sum()` over columns equals the number of column positions holding a present cell |
| MetaFeatures.RowsWithValuesCount | automl/model_selection/metadata_extraction.py:29 | `(count(axis=1) > 0).sum()` equals the number of rows holding a present cell |
| MetaFeatures.InitialKeysDistinct | automl/model_selection/metadata_extraction.py:31-39 | the seven structural keys are pairwise different |
| MetaFeatures.StructureFeatures | automl/model_selection/metadata_extraction.py:31-39 | the update holds exactly the seven structural keys, each mapped to its count |
| MetaFeatures.CompleteTableCounts | automl/model_selection/metadata_extraction.py:28-29 | with no missing cell, every column has a value (when there are rows) and every row has one (when there are columns) |
| MetaFeatures.AllNumericTable | automl/model_selection/metadata_extraction.py:25-26 | an all-numeric frame has no non-numeric column |
| MetaFeatures.ClassificationFeatures | automl/model_selection/metadata_extraction.py:92-98 | writes exactly `NClasses` and `YImbalance`; `NClasses` is the number of distinct labels, a missing label included |
| MetaFeatures.TargetFeatures | automl/model_selection/metadata_extraction.py:89-121 | each extractor writes exactly its own target keys: none for the base; for classification `NClasses` is the number of distinct labels and `YImbalance` the imbalance; for regression `YStd` is the target's deviation and `YImbalance` the imbalance |
| MetaFeatures.NatToString | automl/model_selection/metadata_extraction.py:71-72 | the decimal form of `i` has at least one digit, and two from 10 on |
| MetaFeatures.NatToStringInjective | automl/model_selection/metadata_extraction.py:71-72 | different indices format differently |
| MetaFeatures.LandmarkKeysDistinct | automl/model_selection/metadata_extraction.py:71-72 | no `lp` key equals an `lt` key, and each key names one index |
| MetaFeatures.FirstLandmarkFailure | automl/model_selection/metadata_extraction.py:66-72 | every landmark model before the returned position cross-validates, and the one at that position (if any) raises |
| MetaFeatures.FirstLandmarkFailureAt | automl/model_selection/metadata_extraction.py:66-72 | a position with every earlier landmark model succeeding and the model there raising (or the list ending) is the first failure |
| MetaFeatures.LandmarkMerge | automl/model_selection/metadata_extraction.py:70-72 | merging the first `k` landmarks adds exactly their `lp`/`lt` keys and leaves every other key's value alone |
| MetaFeatures.LandmarkFeatures | automl/model_selection/metadata_extraction.py:66-72 | the first `n` landmark models write exactly the keys `lp 0..n-1` and `lt 0..n-1` |
| MetaFeatures.LandmarkFeatureValues | automl/model_selection/metadata_extraction.py:66-72 | `lp i` holds model `i`'s score and `lt i` its duration, which is non-negative |
| MetaFeatures.BuiltInLandmarkKeys | automl/model_selection/metadata_extraction.py:82-109 | when no landmark model raises, the classification and regression extractors write `lp 0`..`lp 3` and `lt 0`..`lt 3`; the base extractor writes none |
| MetaFeatures.WithoutTarget | automl/model_selection/metadata_extraction.py:64 | dropping `y` keeps exactly the columns not named `y` |
| MetaFeatures.WithoutTargetAppend | automl/model_selection/metadata_extraction.py:64 | dropping distributes over concatenation: each other column is kept once, in its original order |
| MetaFeatures.WithoutTargetKeepsOthers | automl/model_selection/metadata_extraction.py:64 | a frame with no column named `y` keeps all its columns, in order |
| MetaFeatures.SampleRows | automl/model_selection/metadata_extraction.py:63-64 | the sample has one row per draw and no column named `y` |
| MetaFeatures.SampleIsBoundedAndAligned | automl/model_selection/metadata_extraction.py:62-64 | the sample has `min(500, len(y))` rows, and sampled features and target come from the same drawn rows |
| MetaFeatures.ExtractorFor | automl/model_selection/metadata_extraction.py:126-132 | classification gets the classification extractor and regression the regression one, each with four landmark models; an unsupported problem class gets the base extractor, with none |
| MetaFeatures.MetaExtractor.constructor | automl/model_selection/metadata_extraction.py:20-21 | a new extractor starts with an empty dictionary |
| MetaFeatures.MetaExtractor.ExtractInitial | automl/model_selection/metadata_extraction.py:23-39 | merges the structural and then the target features; the key set grows by exactly those keys, and every other key keeps its value |
| MetaFeatures.DistributionFeatures | automl/model_selection/metadata_extraction.py:49-54 | the update holds exactly `STDRatio`, `CorrelationMean`, `SkewnessMean` and `KurtosisMean`, each mapped to its statistic |
| MetaFeatures.MetaExtractor.ExtractPreprocessed | automl/model_selection/metadata_extraction.py:41-56 | merges the distribution statistics, then the landmarks of the sample up to the first landmark model that raises; that model's error is returned, and none when all succeed |
| MetaFeatures.MetaExtractor.MergeLandmarks | automl/model_selection/metadata_extraction.py:66-72 | the loop over the landmark models on a drawn sample: the dictionary gains `lp i`/`lt i` for every model before the first that raises, whose error is returned; other keys keep their values |
| MetaFeatures.MetaExtractor.ExtractLandmarks | automl/model_selection/metadata_extraction.py:62-72 | the dictionary is the old one updated with `lp i`/`lt i` for every landmark model before the first that raises (all of them when none does), whose error is returned; other keys keep their values |
| MetaFeatures.GetExtractor | automl/model_selection/metadata_extraction.py:126-132 | never fails; returns a fresh extractor of the kind the problem class selects, with an empty dictionary |
| Selection.CatalogShapes | automl/model_selection/model_selection.py:119-167 | each catalog has 19 model types, with at most one keyword argument each; the passive-aggressive models and the perceptron get `1e-3` (`max_iter` for classification, `tol` for regression) |
| Selection.KeyError | automl/model_selection/model_selection.py:103-105 | the sort key of an entry raises `KeyError` for its name exactly when it has no meta-model, and otherwise the error its meta-model's `predict` raised |
| Selection.FirstUndefinedKey | automl/model_selection/model_selection.py:103-107 | `sorted` computes the keys in catalog order: every entry before the returned position has a meta-model that predicts, and the entry at that position (if any) does not |
| Selection.Predict | automl/model_selection/model_selection.py:105 | the sort key is the value the entry's meta-model predicts |
| Selection.Predictions | automl/model_selection/model_selection.py:103-107 | one sort key per catalog entry, each its meta-model's prediction |
| Selection.PredictedOrder | automl/model_selection/model_selection.py:98-109 | without a limit the order is the catalog; with one it fails exactly when some catalog entry has no meta-model or its `predict` raises, with the error of the first such entry, and otherwise is a permutation of the catalog |
| Selection.PredictedOrderIsStableDescending | automl/model_selection/model_selection.py:102-107 | the predicted order takes catalog entries by the stable descending order: predictions never increase, and equal predictions keep catalog order |
| Selection.FirstFailure | automl/model_selection/model_selection.py:60-68 | every candidate before the returned position is scored, and the candidate at that position (if any) fails |
| Selection.CompletedCount | automl/model_selection/model_selection.py:57-70 | between 0 and the number of ordered candidates complete, all of them scored |
| Selection.StopOf | automl/model_selection/model_selection.py:57-72 | the exit of the try/except/else: a run ends normally exactly when all candidates completed; a timeout needs an armed alarm and cuts at the alarm; a failure cuts at the failing candidate and carries its error |
| Selection.NewRows | automl/model_selection/model_selection.py:63-68 | one row per completed candidate, naming it, in order |
| Selection.NewRowsHoldResults | automl/model_selection/model_selection.py:61-68 | row `j` is candidate `j`'s name with its cross-validated mean score (NaN included) and its duration |
| Selection.MaxSkipNaN | automl/model_selection/model_selection.py:174 | `max()` is NaN exactly when every value is; otherwise it is one of the values and bounds every real one |
| Selection.NormalizeRmse | automl/model_selection/model_selection.py:174 | one normalised score per error |
| Selection.NormalizeRmseReversesOrder | automl/model_selection/model_selection.py:172-174 | with a positive largest error, a smaller error gets a larger score, and conversely |
| Selection.NormalizeRmseRange | automl/model_selection/model_selection.py:172-174 | the largest error maps to `1e-6`, a zero error to `1 + 1e-6`, and non-negative errors into `[1e-6, 1 + 1e-6]` |
| Selection.NormalizeRmseUndefined | automl/model_selection/model_selection.py:173-174 | a NaN error stays NaN, and an all-NaN or zero maximum makes every score NaN |
| Selection.NormalizedTable | automl/model_selection/model_selection.py:172-174 | names and times are untouched; classification leaves the table unchanged; regression replaces each score with the normalised root of its negated value, the maximum taken over the whole table |
| Selection.Roots | automl/model_selection/model_selection.py:173 | one root error per row: the square root of the negated score, NaN for a NaN or positive score |
| Selection.NormalizedScoresFollowRawScores | automl/model_selection/model_selection.py:172-174 | with a strictly increasing, non-negative square root and some row of nonzero error, a row with a strictly higher raw score gets a strictly higher normalised score, and conversely |
| Selection.RootsFollowScores | automl/model_selection/model_selection.py:173 | with a strictly increasing square root, a strictly higher non-positive score has a strictly smaller root error, and conversely |
| Selection.LargestRootPositive | automl/model_selection/model_selection.py:173-174 | one row of nonzero error makes `scores.max()` a positive real, so the division is defined |
| Selection.RenormalisedRowsBecomeNaN | automl/model_selection/model_selection.py:173 | normalising a positive regression score again gives NaN |
| Selection.Zip | automl/model_selection/model_selection.py:76 | `zip` is as long as the shorter input and pairs equal positions |
| Selection.BestOf | automl/model_selection/model_selection.py:78-81 | choosing the best fails exactly on an empty list |
| Selection.BestIsEarliestMaximum | automl/model_selection/model_selection.py:79-80 | the best model has the largest rank, and no earlier entry has that rank |
| Selection.UnlimitedRunCoversCatalog | automl/model_selection/model_selection.py:56-72 | without a time limit and with no failure, every catalog entry gets a row in catalog order, and the run ends normally |
| Selection.RunAppendsOrderedPrefix | automl/model_selection/model_selection.py:60-74 | a run keeps the old rows' names and times and appends exactly the first `k` ordered candidates, in order |
| Selection.EarlyAlarmRecordsNothing | automl/model_selection/model_selection.py:57-70 | an alarm during the first candidate ends the run as a timeout with no row |
| Selection.FirstRunPairsEvaluatedCandidates | automl/model_selection/model_selection.py:73-81 | on a first run the relative landmarks pair exactly the completed candidates with their rows' ranks; a best model exists exactly when one completed, and it is one of them |
| Selection.Alarm.Set | automl/model_selection/model_selection.py:58-72 | `signal.alarm(s)` schedules an alarm exactly when `s > 0` |
| Selection.Evaluator.constructor | automl/model_selection/model_selection.py:34-47 | empty table, no relative landmarks; meta-models are loaded only with a non-zero time limit |
| Selection.Evaluator.NormalizeScores | automl/model_selection/model_selection.py:172-174 | replaces the table by its normalised form |
| Selection.Evaluator.EvaluateInOrder | automl/model_selection/model_selection.py:57-70 | the table grows by the rows of the first `CompletedCount` candidates; the loop stops as `StopOf` says; a timeout clears the alarm |
| Selection.ValidEvaluatorOrder | automl/model_selection/model_selection.py:98-109 | an evaluator built for a kind orders that kind's catalog: as it stands without a limit, a permutation of it with one, and a failure only for an entry whose key raises |
| Selection.Evaluator.EvaluateModels | automl/model_selection/model_selection.py:55-76 | a missing or raising meta-model fails with nothing changed; otherwise the table is the normalised old table plus the completed rows, the landmarks zip the order with the ranks, the alarm stays scheduled only after a failure, and only a failure propagates |
| Selection.Evaluator.GetBestModel | automl/model_selection/model_selection.py:78-85 | fails before any evaluation and on empty landmarks; otherwise returns the candidate of an entry whose rank is the largest, with no earlier entry of that rank |
| Selection.GetEvaluator | automl/model_selection/model_selection.py:177-183 | classification and regression get a fresh evaluator of that kind with the given limit and trade rate; any other problem class fails |

## Left out

- The machine-learning library is not modelled: model constructors, `cross_val_score`, scorers and the `accuracy` / `neg_mean_squared_error` scoring names. Cross-validation is a parameter returning a mean score (possibly NaN) and a duration, or an error; the `timer()` readings appear only as that duration.
- Loading the meta-models with `joblib.load` over a directory listing is file I/O. The store is a map from model name to a predictor, passed to the constructor.
- `SIGALRM` arming, the handler and asynchronous interruption are not modelled. They become the `alarmAfter` count and the `Alarm` object's pending flag. A timeout that would fire during normalisation or ranking is not modelled.
- Selection.StopOf: an alarm that fires after the last candidate's row is appended but before `signal.alarm(0)` (model_selection.py:71-72) is raised from the `else` clause, so it escapes the `except` and propagates after the `finally`. The model treats such a run as ending normally; `alarmAfter` can only cut the loop while a candidate is being evaluated.
- Floating-point rounding is not modelled: scores, durations and the normaliser's arithmetic are exact reals. Selection.NormalizeRmseReversesOrder and Selection.NormalizedScoresFollowRawScores are therefore stronger than doubles guarantee: `1 - e / 1.0 + 1e-6` rounds to the same double for `e = 1e-20` and `e = 2e-20`, so the strict reversal can collapse to a tie.
- `get_rls` is not part of this model. It is an uninterpreted parameter from the table and the trade rate to ranks.
- Floating-point statistics are inputs, not computed: standard deviations, `gmean` over positive deviations, Pearson correlation, skew, kurtosis, `YImbalance`, `YStd`. `np.sqrt` is a parameter; infinities are folded into NaN.
- MetaFeatures.MetaExtractor.ExtractPreprocessed: the statistics arrive as values, so the "only columns with positive deviation" filter is not stated.
- `as_df` / `as_dict` are not separate operations. The model reads the `metaData` field, and the aliasing of the returned dictionary is not captured.
- The dictionary's key insertion order, and so the column order of the meta-feature row, is not modelled.
- The random choice of sampled rows is a parameter (`draw`, distinct rows).
- Pandas dtype inference is a per-column numeric flag; `select_dtypes` is that flag.
- Selection.Evaluator.EvaluateModels: ranks are taken as reals, so NaN ranks and their effect on sorting are not modelled. A negative time limit is not modelled (`timeLimit` is a natural number).
- Selection.Evaluator.GetBestModel: returns the chosen `Candidate` (type and keyword arguments) rather than a constructed estimator.
- `automl.py` (`fit`, `describe`, `save_meta_data`) is pipeline orchestration, printing and CSV I/O, and is not part of this model. `problem_classification.py` is not part of this model either; the problem class is the `ProblemType` value.

=== FILE: common.dfy ===
/** Values shared by the meta-feature extractor and the model evaluator. */
module Common {

  /** A floating-point value as pandas/numpy hold it: a real number or the
      undefined value NaN (infinities are folded into NaN in this model). */
  datatype Num = Real(r: real) | NaN

  /** A wall-clock duration measured as `end - start` of a monotonic timer. */
  type Duration = t: real | 0.0 <= t

  datatype Option<T> = None | Some(value: T)

  /** A value or the exception that the source would raise instead. */
  datatype Result<T, E> = Ok(value: T) | Err(error: E)

  /** The problem class the caller chooses; `OtherProblem` stands for every
      value that is neither of the two supported ones. */
  datatype ProblemType = Classification | Regression | OtherProblem

  /** A keyword argument of a model constructor. */
  datatype Param = IntParam(i: int) | RealParam(x: real)

  /** A model type (its class name) with the keyword arguments it is built with. */
  datatype Candidate = Candidate(name: string, params: map<string, Param>)

  function Min(a: int, b: int): int {
    if a <= b then a else b
  }

  /** The positions 0, 1, ..., n - 1. */
  function Indices(n: nat): (r: seq<nat>)
    ensures |r| == n
    ensures forall i :: 0 <= i < n ==> r[i] == i
  {
    seq(n, i => i)
  }

  /** How many elements of `s` satisfy `p` (a pandas boolean `.sum()`). */
  function CountIf<T>(s: seq<T>, p: T -> bool): (n: nat)
    ensures n <= |s|
    ensures n == |s| <==> forall i :: 0 <= i < |s| ==> p(s[i])
    ensures n == 0 <==> forall i :: 0 <= i < |s| ==> !p(s[i])
  {
    if s == [] then 0
    else (if p(s[0]) then 1 else 0) + CountIf(s[1..], p)
  }

  /** The positions of `s` whose element satisfies `p`. */
  function Positions<T>(s: seq<T>, p: T -> bool): set<int> {
    set i | 0 <= i < |s| && p(s[i])
  }

  /** Counting over a sequence extended by one element. */
  lemma {:induction false} CountIfSnoc<T>(s: seq<T>, x: T, p: T -> bool)
    ensures CountIf(s + [x], p) == CountIf(s, p) + (if p(x) then 1 else 0)
  {
    if s != [] {
      assert (s + [x])[1..] == s[1..] + [x];
      CountIfSnoc(s[1..], x, p);
    }
  }

  /** `CountIf` is the number of qualifying positions. */
  lemma {:induction false} CountIfIsPositionCount<T>(s: seq<T>, p: T -> bool)
    ensures CountIf(s, p) == |Positions(s, p)|
  {
    if s != [] {
      var n := |s| - 1;
      var init := s[..n];
      assert s == init + [s[n]];
      CountIfSnoc(init, s[n], p);
      CountIfIsPositionCount(init, p);
      PositionsSnoc(init, s[n], p);
    }
  }

  lemma PositionsSnoc<T>(s: seq<T>, x: T, p: T -> bool)
    ensures Positions(s + [x], p) == Positions(s, p) + (if p(x) then {|s|} else {})
    ensures |s| !in Positions(s, p)
  {
    var t := s + [x];
    forall i | 0 <= i < |s|
      ensures t[i] == s[i]
    {
    }
  }

  /** Counting a predicate and its complement covers every element exactly once. */
  lemma {:induction false} CountComplement<T>(s: seq<T>, p: T -> bool, q: T -> bool)
    requires forall x :: q(x) == !p(x)
    ensures CountIf(s, p) + CountIf(s, q) == |s|
  {
    if s != [] {
      CountComplement(s[1..], p, q);
    }
  }
}

=== FILE: metadata_extraction.dfy ===
/** The meta-feature extractor: structural descriptors of a table (counts of
    examples, features, numeric, categorical and two-valued columns, columns and
    rows that hold a value, distinct labels) and the landmark entries written by
    cheap baseline models, all gathered in one key -> value map. */
module MetaFeatures {
  import opened Common

  /** A present cell holds a number or a non-numeric value. */
  datatype Value = Number(x: real) | Text(s: string)

  /** A cell is missing (NaN / None) or holds a value. */
  datatype Cell = Missing | Present(value: Value)

  /** A column with its label, its dtype tag (numeric or not) and its cells. */
  datatype Column = Column(name: string, numeric: bool, cells: seq<Cell>)

  datatype Table = Table(rows: nat, columns: seq<Column>)

  /** A data frame: every column has one cell per row. */
  type Frame = t: Table | forall c :: c in t.columns ==> |c.cells| == t.rows
    witness Table(0, [])

  /** The meta-feature dictionary. */
  type MetaData = map<string, Num>

  // ---------------------------------------------------------------------
  // Distinct values (`unique`, `nunique(dropna=False)`)
  // ---------------------------------------------------------------------

  /** The distinct cells of `s` in order of first appearance; a missing cell
      counts as one value of its own. */
  function Unique(s: seq<Cell>): (u: seq<Cell>)
    ensures forall c :: c in u <==> c in s
    ensures forall i, j :: 0 <= i < j < |u| ==> u[i] != u[j]
    ensures |u| <= |s|
  {
    if s == [] then []
    else
      var init, last := s[..|s| - 1], s[|s| - 1];
      assert s == init + [last];
      var u := Unique(init);
      if last in u then u else u + [last]
  }

  function DistinctValues(s: seq<Cell>): set<Cell> {
    set c | c in s
  }

  /** The length of `Unique(s)` is the number of distinct values of `s`. */
  lemma {:induction false} UniqueCountsDistinct(s: seq<Cell>)
    ensures |Unique(s)| == |DistinctValues(s)|
  {
    if s != [] {
      var init, last := s[..|s| - 1], s[|s| - 1];
      assert s == init + [last];
      UniqueCountsDistinct(init);
      assert DistinctValues(s) == DistinctValues(init) + {last};
      if last in init {
        assert last in Unique(init) && last in DistinctValues(init);
        assert Unique(s) == Unique(init);
        assert DistinctValues(s) == DistinctValues(init);
      } else {
        assert last !in Unique(init) && last !in DistinctValues(init);
        assert Unique(s) == Unique(init) + [last];
      }
    }
  }

  // ---------------------------------------------------------------------
  // Structural counts (`extract_initial`)
  // ---------------------------------------------------------------------

  predicate IsNumeric(c: Column) {
    c.numeric
  }

  predicate IsCategorical(c: Column) {
    !c.numeric
  }

  /** `nunique(dropna=False) == 2`. */
  predicate IsBinary(c: Column) {
    |Unique(c.cells)| == 2
  }

  /** `count() > 0`: the cells hold at least one value. */
  predicate HasValue(cells: seq<Cell>) {
    exists i :: 0 <= i < |cells| && cells[i].Present?
  }

  predicate ColumnHasValue(c: Column) {
    HasValue(c.cells)
  }

  /** Row `r` holds a value in at least one column. */
  predicate RowHasValue(t: Table, r: nat) {
    exists c :: c in t.columns && r < |c.cells| && c.cells[r].Present?
  }

  function NumericalCount(t: Frame): nat {
    CountIf(t.columns, IsNumeric)
  }

  function CategoricalCount(t: Frame): nat {
    CountIf(t.columns, IsCategorical)
  }

  function BinaryCount(t: Frame): nat {
    CountIf(t.columns, IsBinary)
  }

  function ColumnsWithValues(t: Frame): nat {
    CountIf(t.columns, ColumnHasValue)
  }

  function RowsWithValues(t: Frame): nat {
    CountIf(Indices(t.rows), (r: nat) => RowHasValue(t, r))
  }

  /** `NBinary` is the number of columns holding exactly two distinct cells. */
  lemma BinaryCountIsTwoValuedColumns(t: Frame)
    ensures BinaryCount(t) == |(set i | 0 <= i < |t.columns| && |DistinctValues(t.columns[i].cells)| == 2)|
  {
    CountIfIsPositionCount(t.columns, IsBinary);
    forall i | 0 <= i < |t.columns|
      ensures IsBinary(t.columns[i]) <==> |DistinctValues(t.columns[i].cells)| == 2
    {
      BinaryMeansTwoDistinctValues(t.columns[i]);
    }
    assert Positions(t.columns, IsBinary) ==
      set i | 0 <= i < |t.columns| && |DistinctValues(t.columns[i].cells)| == 2;
  }

  /** `NNumerical` is the number of numeric columns and `NCategorical` the
      number of the others. */
  lemma NumericalCountsNumericColumns(t: Frame)
    ensures NumericalCount(t) == |(set i | 0 <= i < |t.columns| && t.columns[i].numeric)|
    ensures CategoricalCount(t) == |(set i | 0 <= i < |t.columns| && !t.columns[i].numeric)|
  {
    CountIfIsPositionCount(t.columns, IsNumeric);
    CountIfIsPositionCount(t.columns, IsCategorical);
    assert Positions(t.columns, IsNumeric) == set i | 0 <= i < |t.columns| && t.columns[i].numeric;
    assert Positions(t.columns, IsCategorical) == set i | 0 <= i < |t.columns| && !t.columns[i].numeric;
  }

  /** The cells of row `r`, one per column. */
  function Row(t: Frame, r: nat): (row: seq<Cell>)
    requires r < t.rows
    ensures |row| == |t.columns|
  {
    seq(|t.columns|, i requires 0 <= i < |t.columns| => (assert t.columns[i] in t.columns; t.columns[i].cells[r]))
  }

  /** `NFeaturesWithNANs` is the number of columns with a present cell. */
  lemma ColumnsWithValuesCount(t: Frame)
    ensures ColumnsWithValues(t) ==
      |(set i | 0 <= i < |t.columns| && exists r :: 0 <= r < t.rows && t.columns[i].cells[r].Present?)|
  {
    CountIfIsPositionCount(t.columns, ColumnHasValue);
    forall i | 0 <= i < |t.columns|
      ensures |t.columns[i].cells| == t.rows
    {
      assert t.columns[i] in t.columns;
    }
    assert Positions(t.columns, ColumnHasValue) ==
      set i | 0 <= i < |t.columns| && exists r :: 0 <= r < t.rows && t.columns[i].cells[r].Present?;
  }

  /** `NExamplesWithNANs` is the number of rows with a present cell. */
  lemma RowsWithValuesCount(t: Frame)
    ensures RowsWithValues(t) ==
      |(set r | 0 <= r < t.rows && HasValue(Row(t, r)))|
  {
    var p := (r: nat) => RowHasValue(t, r);
    CountIfIsPositionCount(Indices(t.rows), p);
    forall r | 0 <= r < t.rows
      ensures RowHasValue(t, r) <==> HasValue(Row(t, r))
    {
      var row := Row(t, r);
      if RowHasValue(t, r) {
        var c :| c in t.columns && r < |c.cells| && c.cells[r].Present?;
        var i :| 0 <= i < |t.columns| && t.columns[i] == c;
        assert row[i].Present?;
      }
      if HasValue(row) {
        var i :| 0 <= i < |row| && row[i].Present?;
        assert t.columns[i] in t.columns;
      }
    }
    assert Positions(Indices(t.rows), p) == set r | 0 <= r < t.rows && HasValue(Row(t, r));
  }

  const NExamplesKey := "NExamples"
  const NFeaturesKey := "NFeatures"
  const NNumericalKey := "NNumerical"
  const NCategoricalKey := "NCategorical"
  const NBinaryKey := "NBinary"
  const NFeaturesWithNANsKey := "NFeaturesWithNANs"
  const NExamplesWithNANsKey := "NExamplesWithNANs"

  const InitialKeys: set<string> := {
    NExamplesKey, NFeaturesKey, NNumericalKey, NCategoricalKey,
    NBinaryKey, NFeaturesWithNANsKey, NExamplesWithNANsKey
  }

  lemma InitialKeysDistinct()
    ensures NExamplesKey != NFeaturesKey && NExamplesKey != NNumericalKey && NExamplesKey != NCategoricalKey
    ensures NExamplesKey != NBinaryKey && NExamplesKey != NFeaturesWithNANsKey && NExamplesKey != NExamplesWithNANsKey
    ensures NFeaturesKey != NNumericalKey && NFeaturesKey != NCategoricalKey && NFeaturesKey != NBinaryKey
    ensures NFeaturesKey != NFeaturesWithNANsKey && NFeaturesKey != NExamplesWithNANsKey
    ensures NNumericalKey != NCategoricalKey && NNumericalKey != NBinaryKey
    ensures NNumericalKey != NFeaturesWithNANsKey && NNumericalKey != NExamplesWithNANsKey
    ensures NCategoricalKey != NBinaryKey && NCategoricalKey != NFeaturesWithNANsKey && NCategoricalKey != NExamplesWithNANsKey
    ensures NBinaryKey != NFeaturesWithNANsKey && NBinaryKey != NExamplesWithNANsKey
    ensures NFeaturesWithNANsKey != NExamplesWithNANsKey
  {
    assert NExamplesKey[1] != NFeaturesKey[1];
    assert NFeaturesWithNANsKey[1] != NExamplesWithNANsKey[1];
  }

  function Count(n: nat): Num {
    Real(n as real)
  }

  /** The seven structural counts of `extract_initial`. */
  datatype StructuralCounts = StructuralCounts(
    examples: nat, features: nat, numerical: nat, categorical: nat,
    binary: nat, featuresWithValues: nat, examplesWithValues: nat)

  /** Counts the structure of a frame. The numeric and non-numeric columns
      partition the features; the two-valued columns and the columns with a
      value are among the features; the rows with a value are among the
      examples. */
  function CountStructure(t: Frame): (c: StructuralCounts)
    ensures c.examples == t.rows && c.features == |t.columns|
    ensures c.numerical + c.categorical == c.features
    ensures c.numerical == |(set i | 0 <= i < |t.columns| && t.columns[i].numeric)|
    ensures c.categorical == |(set i | 0 <= i < |t.columns| && !t.columns[i].numeric)|
    ensures c.binary <= c.features
    ensures c.featuresWithValues <= c.features
    ensures c.examplesWithValues <= c.examples
    ensures c.binary == |(set i | 0 <= i < |t.columns| && |DistinctValues(t.columns[i].cells)| == 2)|
    ensures c.featuresWithValues ==
      |(set i | 0 <= i < |t.columns| && exists r :: 0 <= r < t.rows && t.columns[i].cells[r].Present?)|
    ensures c.examplesWithValues ==
      |(set r | 0 <= r < t.rows && HasValue(Row(t, r)))|
  {
    CountComplement(t.columns, IsNumeric, IsCategorical);
    NumericalCountsNumericColumns(t);
    BinaryCountIsTwoValuedColumns(t);
    ColumnsWithValuesCount(t);
    RowsWithValuesCount(t);
    StructuralCounts(
      t.rows, |t.columns|, NumericalCount(t), CategoricalCount(t),
      BinaryCount(t), ColumnsWithValues(t), RowsWithValues(t))
  }

  /** The map `extract_initial` merges into the meta-data: exactly the seven
      structural keys, each holding its count. */
  function StructureFeatures(c: StructuralCounts): (m: MetaData)
    ensures m.Keys == InitialKeys
    ensures m[NExamplesKey] == Count(c.examples) && m[NFeaturesKey] == Count(c.features)
    ensures m[NNumericalKey] == Count(c.numerical) && m[NCategoricalKey] == Count(c.categorical)
    ensures m[NBinaryKey] == Count(c.binary) && m[NFeaturesWithNANsKey] == Count(c.featuresWithValues)
    ensures m[NExamplesWithNANsKey] == Count(c.examplesWithValues)
  {
    InitialKeysDistinct();
    map[
      NExamplesKey := Count(c.examples),
      NFeaturesKey := Count(c.features),
      NNumericalKey := Count(c.numerical),
      NCategoricalKey := Count(c.categorical),
      NBinaryKey := Count(c.binary),
      NFeaturesWithNANsKey := Count(c.featuresWithValues),
      NExamplesWithNANsKey := Count(c.examplesWithValues)
    ]
  }

  function InitialFeatures(t: Frame): MetaData {
    StructureFeatures(CountStructure(t))
  }

  /** A column is counted as binary exactly when it holds two distinct values,
      a missing cell being one of them. */
  lemma BinaryMeansTwoDistinctValues(c: Column)
    ensures IsBinary(c) <==> |DistinctValues(c.cells)| == 2
  {
    UniqueCountsDistinct(c.cells);
  }

  /** In a table without missing cells, `NFeaturesWithNANs` equals the feature
      count and `NExamplesWithNANs` the example count: the two descriptors count
      columns and rows that hold a value, not ones that lack one. */
  lemma CompleteTableCounts(t: Frame)
    requires forall c :: c in t.columns ==> forall i :: 0 <= i < |c.cells| ==> c.cells[i].Present?
    ensures t.rows > 0 ==> ColumnsWithValues(t) == |t.columns|
    ensures |t.columns| > 0 ==> RowsWithValues(t) == t.rows
  {
    if t.rows > 0 {
      forall i | 0 <= i < |t.columns|
        ensures ColumnHasValue(t.columns[i])
      {
        assert t.columns[i] in t.columns;
        assert t.columns[i].cells[0].Present?;
      }
    }
    if |t.columns| > 0 {
      var rows := Indices(t.rows);
      forall i | 0 <= i < |rows|
        ensures RowHasValue(t, rows[i])
      {
        var c := t.columns[0];
        assert c in t.columns;
        assert rows[i] < |c.cells| && c.cells[rows[i]].Present?;
      }
    }
  }

  /** A table whose columns are all numeric has no non-numeric column. */
  lemma AllNumericTable(t: Frame)
    requires forall c :: c in t.columns ==> c.numeric
    ensures NumericalCount(t) == |t.columns| && CategoricalCount(t) == 0
  {
    assert forall i :: 0 <= i < |t.columns| ==> t.columns[i] in t.columns;
  }

  // ---------------------------------------------------------------------
  // Problem-specific descriptors and extractor variants
  // ---------------------------------------------------------------------

  datatype ExtractorKind = BaseExtractor | ClassificationExtractor | RegressionExtractor

  /** Floating-point statistics of the target computed outside the model:
      `y.std()` and the imbalance (the standard deviation of class frequencies
      for classification, of non-empty histogram bin counts for regression). */
  datatype TargetStats = TargetStats(std: Num, imbalance: Num)

  const NClassesKey := "NClasses"
  const YImbalanceKey := "YImbalance"
  const YStdKey := "YStd"

  function TargetKeys(kind: ExtractorKind): set<string> {
    match kind
    case BaseExtractor => {}
    case ClassificationExtractor => {NClassesKey, YImbalanceKey}
    case RegressionExtractor => {YStdKey, YImbalanceKey}
  }

  /** The classification descriptors: `NClasses` is the number of distinct
      labels of `y` (a missing label counts as one), `YImbalance` as given. */
  function ClassificationFeatures(y: seq<Cell>, imbalance: Num): (m: MetaData)
    ensures m.Keys == TargetKeys(ClassificationExtractor)
    ensures m[NClassesKey] == Count(|DistinctValues(y)|)
    ensures m[YImbalanceKey] == imbalance
  {
    UniqueCountsDistinct(y);
    map[NClassesKey := Count(|Unique(y)|), YImbalanceKey := imbalance]
  }

  /** The descriptors a variant's `extract_initial` adds after the base ones:
      the class count and imbalance for classification, the spread and
      imbalance of the target for regression. */
  function TargetFeatures(kind: ExtractorKind, y: seq<Cell>, stats: TargetStats): (m: MetaData)
    ensures m.Keys == TargetKeys(kind)
    ensures kind.ClassificationExtractor? ==>
      m[NClassesKey] == Count(|DistinctValues(y)|) && m[YImbalanceKey] == stats.imbalance
    ensures kind.RegressionExtractor? ==> m[YStdKey] == stats.std && m[YImbalanceKey] == stats.imbalance
  {
    match kind
    case BaseExtractor => map[]
    case ClassificationExtractor => ClassificationFeatures(y, stats.imbalance)
    case RegressionExtractor => map[YStdKey := stats.std, YImbalanceKey := stats.imbalance]
  }

  /** Floating-point statistics of the preprocessed matrix computed outside the
      model: the geometric mean of positive column deviations, the mean absolute
      Pearson correlation, the mean skewness and the mean kurtosis. */
  datatype DistributionStats = DistributionStats(stdRatio: Num, corrMean: Num, skewMean: Num, kurtMean: Num)

  /** The update of `extract_preprocessed`: exactly the four distribution
      keys, each holding its statistic. */
  function DistributionFeatures(stats: DistributionStats): (m: MetaData)
    ensures m.Keys == {"STDRatio", "CorrelationMean", "SkewnessMean", "KurtosisMean"}
    ensures m["STDRatio"] == stats.stdRatio && m["CorrelationMean"] == stats.corrMean
    ensures m["SkewnessMean"] == stats.skewMean && m["KurtosisMean"] == stats.kurtMean
  {
    map[
      "STDRatio" := stats.stdRatio,
      "CorrelationMean" := stats.corrMean,
      "SkewnessMean" := stats.skewMean,
      "KurtosisMean" := stats.kurtMean
    ]
  }

  // ---------------------------------------------------------------------
  // Landmarks (`_extract_landmarks`)
  // ---------------------------------------------------------------------

  const ClassificationLandmarks: seq<Candidate> := [
    Candidate("DecisionTreeClassifier", map["max_depth" := IntParam(2)]),
    Candidate("KNeighborsClassifier", map["n_neighbors" := IntParam(1)]),
    Candidate("KNeighborsClassifier", map["n_neighbors" := IntParam(3)]),
    Candidate("LinearDiscriminantAnalysis", map[])
  ]

  const RegressionLandmarks: seq<Candidate> := [
    Candidate("DecisionTreeRegressor", map["max_depth" := IntParam(2)]),
    Candidate("KNeighborsRegressor", map["n_neighbors" := IntParam(1)]),
    Candidate("KNeighborsRegressor", map["n_neighbors" := IntParam(3)]),
    Candidate("LinearRegression", map[])
  ]

  function LandmarkModels(kind: ExtractorKind): seq<Candidate> {
    match kind
    case BaseExtractor => []
    case ClassificationExtractor => ClassificationLandmarks
    case RegressionExtractor => RegressionLandmarks
  }

  /** The decimal digit `d`. */
  function DigitChar(d: nat): char
    requires d < 10
  {
    (48 + d) as char
  }

  /** `str(n)` for a non-negative integer. */
  function NatToString(n: nat): (s: string)
    ensures |s| >= 1
    ensures n >= 10 ==> |s| >= 2
  {
    if n < 10 then [DigitChar(n)]
    else NatToString(n / 10) + [DigitChar(n % 10)]
  }

  /** Different numbers print differently. */
  lemma {:induction false} NatToStringInjective(a: nat, b: nat)
    ensures NatToString(a) == NatToString(b) ==> a == b
  {
    if NatToString(a) == NatToString(b) && a >= 10 && b >= 10 {
      var sa, sb := NatToString(a), NatToString(b);
      assert sa[|sa| - 1] == sb[|sb| - 1];
      assert NatToString(a / 10) == sa[..|sa| - 1];
      assert NatToString(b / 10) == sb[..|sb| - 1];
      NatToStringInjective(a / 10, b / 10);
    }
  }

  /** `'lp {}'.format(i)`: the key of the i-th landmark's mean score. */
  function ScoreKey(i: nat): string {
    "lp " + NatToString(i)
  }

  /** `'lt {}'.format(i)`: the key of the i-th landmark's duration. */
  function TimeKey(i: nat): string {
    "lt " + NatToString(i)
  }

  /** Landmark keys never collide: a score key is never a time key, and two
      positions share a key only if they are equal. */
  lemma LandmarkKeysDistinct(i: nat, j: nat)
    ensures ScoreKey(i) != TimeKey(j)
    ensures ScoreKey(i) == ScoreKey(j) ==> i == j
    ensures TimeKey(i) == TimeKey(j) ==> i == j
  {
    assert ScoreKey(i)[1] == 'p' && TimeKey(j)[1] == 't';
    if ScoreKey(i) == ScoreKey(j) {
      assert NatToString(i) == ScoreKey(i)[3..];
      assert NatToString(j) == ScoreKey(j)[3..];
      NatToStringInjective(i, j);
    }
    if TimeKey(i) == TimeKey(j) {
      assert NatToString(i) == TimeKey(i)[3..];
      assert NatToString(j) == TimeKey(j)[3..];
      NatToStringInjective(i, j);
    }
  }

  function ScoreKeys(n: nat): set<string> {
    set i | 0 <= i < n :: ScoreKey(i)
  }

  function TimeKeys(n: nat): set<string> {
    set i | 0 <= i < n :: TimeKey(i)
  }

  lemma KeysStep(n: nat)
    ensures ScoreKeys(n + 1) == ScoreKeys(n) + {ScoreKey(n)}
    ensures TimeKeys(n + 1) == TimeKeys(n) + {TimeKey(n)}
  {
  }

  /** What cross-validating one landmark model on the sample gives: the mean
      score and the time it took, or the error it raised. */
  datatype LandmarkResult = Landmarked(score: Num, time: Duration) | LandmarkFailed(message: string)

  /** Cross-validation of a landmark model (a call into the machine-learning
      library). */
  type LandmarkOracle = (Candidate, Frame, seq<Cell>) -> LandmarkResult

  /** The position of the first landmark model whose cross-validation fails,
      or the number of models when none fails. */
  function FirstLandmarkFailure(models: seq<Candidate>, x: Frame, y: seq<Cell>, cv: LandmarkOracle): (f: nat)
    ensures f <= |models|
    ensures forall j :: 0 <= j < f ==> cv(models[j], x, y).Landmarked?
    ensures f < |models| ==> cv(models[f], x, y).LandmarkFailed?
  {
    if models == [] || cv(models[0], x, y).LandmarkFailed? then 0
    else
      var rest := FirstLandmarkFailure(models[1..], x, y, cv);
      assert forall j :: 1 <= j < |models| ==> models[j] == models[1..][j - 1];
      1 + rest
  }

  /** The entries written for the first `n` landmark models. */
  function LandmarkFeatures(models: seq<Candidate>, x: Frame, y: seq<Cell>, cv: LandmarkOracle, n: nat): (m: MetaData)
    requires n <= |models| && forall j :: 0 <= j < n ==> cv(models[j], x, y).Landmarked?
    ensures m.Keys == ScoreKeys(n) + TimeKeys(n)
  {
    if n == 0 then map[]
    else
      var res := cv(models[n - 1], x, y);
      KeysStep(n - 1);
      LandmarkFeatures(models, x, y, cv, n - 1)[ScoreKey(n - 1) := res.score][TimeKey(n - 1) := Real(res.time)]
  }

  /** The i-th landmark's entries hold its own score and its own non-negative
      duration; no later landmark overwrites them. */
  lemma {:induction false} LandmarkFeatureValues(models: seq<Candidate>, x: Frame, y: seq<Cell>, cv: LandmarkOracle, n: nat, i: nat)
    requires i < n <= |models| && forall j :: 0 <= j < n ==> cv(models[j], x, y).Landmarked?
    ensures var m := LandmarkFeatures(models, x, y, cv, n);
      && m[ScoreKey(i)] == cv(models[i], x, y).score
      && m[TimeKey(i)] == Real(cv(models[i], x, y).time)
      && m[TimeKey(i)].r >= 0.0
  {
    var res := cv(models[n - 1], x, y);
    var prev := LandmarkFeatures(models, x, y, cv, n - 1);
    assert LandmarkFeatures(models, x, y, cv, n) == prev[ScoreKey(n - 1) := res.score][TimeKey(n - 1) := Real(res.time)];
    if i < n - 1 {
      LandmarkFeatureValues(models, x, y, cv, n - 1, i);
      LandmarkKeysDistinct(i, n - 1);
      LandmarkKeysDistinct(n - 1, i);
    } else {
      LandmarkKeysDistinct(i, i);
    }
  }

  lemma SmallKeys()
    ensures ScoreKey(0) == "lp 0" && ScoreKey(1) == "lp 1" && ScoreKey(2) == "lp 2" && ScoreKey(3) == "lp 3"
    ensures TimeKey(0) == "lt 0" && TimeKey(1) == "lt 1" && TimeKey(2) == "lt 2" && TimeKey(3) == "lt 3"
  {
    assert NatToString(0) == "0" && NatToString(1) == "1";
    assert NatToString(2) == "2" && NatToString(3) == "3";
  }

  lemma FirstFourKeys()
    ensures ScoreKeys(4) + TimeKeys(4) == {"lp 0", "lp 1", "lp 2", "lp 3", "lt 0", "lt 1", "lt 2", "lt 3"}
  {
    KeysStep(0);
    KeysStep(1);
    KeysStep(2);
    KeysStep(3);
    assert ScoreKeys(0) == {} && TimeKeys(0) == {};
    SmallKeys();
  }

  /** When no landmark model fails, both built-in variants write `lp 0` ..
      `lp 3` and `lt 0` .. `lt 3`; the base extractor writes no landmark key. */
  lemma BuiltInLandmarkKeys(kind: ExtractorKind, x: Frame, y: seq<Cell>, cv: LandmarkOracle)
    requires forall j :: 0 <= j < |LandmarkModels(kind)| ==> cv(LandmarkModels(kind)[j], x, y).Landmarked?
    ensures var models := LandmarkModels(kind);
      LandmarkFeatures(models, x, y, cv, |models|).Keys ==
        if kind.BaseExtractor? then {}
        else {"lp 0", "lp 1", "lp 2", "lp 3", "lt 0", "lt 1", "lt 2", "lt 3"}
  {
    assert ScoreKeys(0) == {} && TimeKeys(0) == {};
    if !kind.BaseExtractor? {
      FirstFourKeys();
    }
  }

  /** Writing two keys after a merge is merging the updated map. */
  /** A position before which every landmark model succeeds, and at which one
      fails or the list ends, is the first failure. */
  lemma FirstLandmarkFailureAt(models: seq<Candidate>, x: Frame, y: seq<Cell>, cv: LandmarkOracle, i: nat)
    requires i <= |models| && forall j :: 0 <= j < i ==> cv(models[j], x, y).Landmarked?
    requires i < |models| ==> cv(models[i], x, y).LandmarkFailed?
    ensures FirstLandmarkFailure(models, x, y, cv) == i
  {
  }

  /** Merging the first `k` landmarks adds exactly their keys and leaves every
      other key's value alone. */
  lemma LandmarkMerge(m: MetaData, models: seq<Candidate>, x: Frame, y: seq<Cell>, cv: LandmarkOracle, k: nat)
    requires k <= |models| && forall j :: 0 <= j < k ==> cv(models[j], x, y).Landmarked?
    ensures var merged := m + LandmarkFeatures(models, x, y, cv, k);
      && merged.Keys == m.Keys + ScoreKeys(k) + TimeKeys(k)
      && forall key :: key in m && key !in ScoreKeys(k) + TimeKeys(k) ==> merged[key] == m[key]
  {
  }

  lemma MergeThenUpdate(m: MetaData, u: MetaData, k1: string, v1: Num, k2: string, v2: Num)
    ensures (m + u)[k1 := v1][k2 := v2] == m + u[k1 := v1][k2 := v2]
  {
  }

  // ---------------------------------------------------------------------
  // The landmark sample
  // ---------------------------------------------------------------------

  /** `sample_size` of `_extract_landmarks`. */
  const SampleSize: nat := 500

  /** The label under which the target is attached to the frame and dropped again. */
  const TargetColumn := "y"

  /** A draw of `sample(min(sample_size, len(y)))`: that many distinct rows. */
  predicate ValidDraw(draw: seq<nat>, rows: nat) {
    && |draw| == Min(SampleSize, rows)
    && (forall j :: 0 <= j < |draw| ==> draw[j] < rows)
    && (forall j, k :: 0 <= j < k < |draw| ==> draw[j] != draw[k])
  }

  /** The columns that survive `assign(y=y)` followed by `drop('y')`. */
  function WithoutTarget(cols: seq<Column>): (r: seq<Column>)
    ensures forall c :: c in r <==> c in cols && c.name != TargetColumn
  {
    if cols == [] then []
    else
      assert cols == [cols[0]] + cols[1..];
      (if cols[0].name == TargetColumn then [] else [cols[0]]) + WithoutTarget(cols[1..])
  }

  /** Dropping distributes over concatenation: every other column is kept
      once, in its original order. */
  lemma {:induction false} WithoutTargetAppend(a: seq<Column>, b: seq<Column>)
    ensures WithoutTarget(a + b) == WithoutTarget(a) + WithoutTarget(b)
  {
    if a == [] {
      assert a + b == b;
    } else {
      var head := if a[0].name == TargetColumn then [] else [a[0]];
      calc {
        WithoutTarget(a + b);
        { assert a + b == [a[0]] + (a[1..] + b); }
        WithoutTarget([a[0]] + (a[1..] + b));
        { WithoutTargetCons(a[0], a[1..] + b); }
        head + WithoutTarget(a[1..] + b);
        { WithoutTargetAppend(a[1..], b); }
        head + (WithoutTarget(a[1..]) + WithoutTarget(b));
        (head + WithoutTarget(a[1..])) + WithoutTarget(b);
        { assert a == [a[0]] + a[1..]; WithoutTargetCons(a[0], a[1..]); }
        WithoutTarget(a) + WithoutTarget(b);
      }
    }
  }

  lemma WithoutTargetCons(c: Column, rest: seq<Column>)
    ensures WithoutTarget([c] + rest) == (if c.name == TargetColumn then [] else [c]) + WithoutTarget(rest)
  {
    assert ([c] + rest)[1..] == rest;
  }

  /** A frame with no column labelled like the target keeps all its columns,
      in order; only target-labelled columns are ever dropped. */
  lemma {:induction false} WithoutTargetKeepsOthers(cols: seq<Column>)
    requires forall i :: 0 <= i < |cols| ==> cols[i].name != TargetColumn
    ensures WithoutTarget(cols) == cols
  {
    if cols != [] {
      WithoutTargetKeepsOthers(cols[1..]);
    }
  }

  function SampleColumn(c: Column, draw: seq<nat>): (s: Column)
    requires forall j :: 0 <= j < |draw| ==> draw[j] < |c.cells|
  {
    Column(c.name, c.numeric, seq(|draw|, j requires 0 <= j < |draw| => c.cells[draw[j]]))
  }

  /** The sampled feature frame: the drawn rows, in draw order, of every column
      not labelled like the target. */
  function SampleRows(t: Frame, draw: seq<nat>): (s: Frame)
    requires forall j :: 0 <= j < |draw| ==> draw[j] < t.rows
    ensures s.rows == |draw|
    ensures forall c :: c in s.columns ==> c.name != TargetColumn
  {
    var kept := WithoutTarget(t.columns);
    Table(|draw|, seq(|kept|, i requires 0 <= i < |kept| => SampleColumn(kept[i], draw)))
  }

  /** The sampled target. */
  function SampleTarget(y: seq<Cell>, draw: seq<nat>): (s: seq<Cell>)
    requires forall j :: 0 <= j < |draw| ==> draw[j] < |y|
  {
    seq(|draw|, j requires 0 <= j < |draw| => y[draw[j]])
  }

  /** The sample has `min(500, len(y))` rows, and its j-th feature row and its
      j-th target value come from the same original row. */
  lemma SampleIsBoundedAndAligned(t: Frame, y: seq<Cell>, draw: seq<nat>)
    requires |y| == t.rows && ValidDraw(draw, |y|)
    ensures var sx, sy := SampleRows(t, draw), SampleTarget(y, draw);
      && sx.rows == |sy| == Min(SampleSize, |y|) <= SampleSize
      && |sx.columns| == |WithoutTarget(t.columns)|
      && forall i, j :: 0 <= i < |sx.columns| && 0 <= j < |sy| ==>
           sx.columns[i].cells[j] == WithoutTarget(t.columns)[i].cells[draw[j]] && sy[j] == y[draw[j]]
  {
  }

  // ---------------------------------------------------------------------
  // The extractor object
  // ---------------------------------------------------------------------

  /** `get_extractor`: never fails; an unsupported problem class gets the base
      extractor. */
  function ExtractorFor(p: ProblemType): (k: ExtractorKind)
    ensures k.BaseExtractor? <==> p.OtherProblem?
    ensures p.Classification? ==> k == ClassificationExtractor
    ensures p.Regression? ==> k == RegressionExtractor
    ensures |LandmarkModels(k)| == if p.OtherProblem? then 0 else 4
  {
    match p
    case Classification => ClassificationExtractor
    case Regression => RegressionExtractor
    case OtherProblem => BaseExtractor
  }

  class MetaExtractor {
    const kind: ExtractorKind
    var metaData: MetaData

    constructor (kind: ExtractorKind)
      ensures this.kind == kind && metaData == map[]
    {
      this.kind := kind;
      metaData := map[];
    }

    /** `extract_initial`: the base descriptors, then the variant's own, each
        merged with `dict.update`; every other key keeps its value. */
    method ExtractInitial(x: Frame, y: seq<Cell>, stats: TargetStats)
      modifies this
      ensures metaData == old(metaData) + InitialFeatures(x) + TargetFeatures(kind, y, stats)
      ensures metaData.Keys == old(metaData).Keys + InitialKeys + TargetKeys(kind)
      ensures forall k :: k in old(metaData) && k !in InitialKeys + TargetKeys(kind) ==> metaData[k] == old(metaData)[k]
    {
      metaData := metaData + InitialFeatures(x);
      metaData := metaData + TargetFeatures(kind, y, stats);
    }

    /** `extract_preprocessed`: the four distribution descriptors, then the
        landmarks; a failing landmark model's error propagates. */
    method ExtractPreprocessed(x: Frame, y: seq<Cell>, stats: DistributionStats, draw: seq<nat>, cv: LandmarkOracle)
      returns (error: Option<string>)
      requires |y| == x.rows && ValidDraw(draw, |y|)
      modifies this
      ensures var models, sx, sy := LandmarkModels(kind), SampleRows(x, draw), SampleTarget(y, draw);
        var k := FirstLandmarkFailure(models, sx, sy, cv);
        && metaData == old(metaData) + DistributionFeatures(stats) + LandmarkFeatures(models, sx, sy, cv, k)
        && error == if k < |models| then Some(cv(models[k], sx, sy).message) else None
    {
      metaData := metaData + DistributionFeatures(stats);
      error := ExtractLandmarks(x, y, draw, cv);
    }

    /** `_extract_landmarks`: samples the rows, then for the i-th landmark model
        writes its mean cross-validated score under `lp i` and its duration
        under `lt i`. The first model whose cross-validation raises stops the
        loop with its error; the keys of the models before it stay written. */
    method ExtractLandmarks(x: Frame, y: seq<Cell>, draw: seq<nat>, cv: LandmarkOracle)
      returns (error: Option<string>)
      requires |y| == x.rows && ValidDraw(draw, |y|)
      modifies this
      ensures var models, sx, sy := LandmarkModels(kind), SampleRows(x, draw), SampleTarget(y, draw);
        var k := FirstLandmarkFailure(models, sx, sy, cv);
        && metaData == old(metaData) + LandmarkFeatures(models, sx, sy, cv, k)
        && metaData.Keys == old(metaData).Keys + ScoreKeys(k) + TimeKeys(k)
        && (forall key :: key in old(metaData) && key !in ScoreKeys(k) + TimeKeys(k) ==> metaData[key] == old(metaData)[key])
        && error == if k < |models| then Some(cv(models[k], sx, sy).message) else None
    {
      error := MergeLandmarks(LandmarkModels(kind), SampleRows(x, draw), SampleTarget(y, draw), cv);
    }

    /** The loop of `_extract_landmarks` over a drawn sample: writes `lp i` and
        `lt i` for each landmark model in turn and stops at the first one that
        raises, returning its error. */
    method MergeLandmarks(models: seq<Candidate>, sx: Frame, sy: seq<Cell>, cv: LandmarkOracle)
      returns (error: Option<string>)
      modifies this
      ensures var k := FirstLandmarkFailure(models, sx, sy, cv);
        && metaData == old(metaData) + LandmarkFeatures(models, sx, sy, cv, k)
        && metaData.Keys == old(metaData).Keys + ScoreKeys(k) + TimeKeys(k)
        && (forall key :: key in old(metaData) && key !in ScoreKeys(k) + TimeKeys(k) ==> metaData[key] == old(metaData)[key])
        && error == if k < |models| then Some(cv(models[k], sx, sy).message) else None
    {
      var i := 0;
      while i < |models|
        invariant 0 <= i <= |models|
        invariant forall j :: 0 <= j < i ==> cv(models[j], sx, sy).Landmarked?
        invariant metaData == old(metaData) + LandmarkFeatures(models, sx, sy, cv, i)
      {
        var res := cv(models[i], sx, sy);
        if res.LandmarkFailed? {
          FirstLandmarkFailureAt(models, sx, sy, cv, i);
          LandmarkMerge(old(metaData), models, sx, sy, cv, i);
          return Some(res.message);
        }
        assert forall j :: 0 <= j < i + 1 ==> cv(models[j], sx, sy).Landmarked?;
        ghost var before := LandmarkFeatures(models, sx, sy, cv, i);
        metaData := metaData[ScoreKey(i) := res.score];
        metaData := metaData[TimeKey(i) := Real(res.time)];
        MergeThenUpdate(old(metaData), before, ScoreKey(i), res.score, TimeKey(i), Real(res.time));
        i := i + 1;
      }
      FirstLandmarkFailureAt(models, sx, sy, cv, i);
      LandmarkMerge(old(metaData), models, sx, sy, cv, i);
      error := None;
    }
  }

  /** `get_extractor`. */
  method GetExtractor(p: ProblemType) returns (e: MetaExtractor)
    ensures fresh(e) && e.kind == ExtractorFor(p) && e.metaData == map[]
  {
    e := new MetaExtractor(ExtractorFor(p));
  }
}

=== FILE: model_selection.dfy ===
/** The time-boxed candidate evaluator: it orders a fixed catalog of model types
    by the scores that pretrained meta-models predict, cross-validates the
    candidates in that order until the list ends, a deadline interrupts it or a
    candidate fails, normalises the recorded scores, pairs the candidates with
    their relative landmarks and picks the best one. */
module Selection {
  import opened Common
  import Ranking
  import MetaFeatures

  type MetaData = MetaFeatures.MetaData

  /** What a meta-model's `predict` gives on the one-row meta-data frame: the
      predicted score, or the error it raised (a NaN meta-feature, say). */
  datatype Prediction = Predicted(value: real) | PredictFailed(message: string)

  /** A pretrained meta-model: predicts a candidate's score from the meta-data. */
  type MetaModel = MetaData -> Prediction

  datatype EvaluatorKind = ClassificationEvaluator | RegressionEvaluator

  /** The errors the evaluator lets through to its caller. */
  datatype EvalError =
    | MissingMetaModel(name: string)  // `self._meta_models[...]` has no such key
    | PredictionError(message: string) // a meta-model's `predict` raised
    | CvError(message: string)        // cross-validation of a candidate raised
    | NotEvaluated                    // `get_best_model` before any evaluation
    | NothingEvaluated                // `get_best_model` with no evaluated candidate
    | UnsupportedProblem              // `get_evaluator` with another problem class

  // ---------------------------------------------------------------------
  // Catalogs
  // ---------------------------------------------------------------------

  function Plain(name: string): Candidate {
    Candidate(name, map[])
  }

  const ClassificationCatalog: seq<Candidate> := [
    Plain("AdaBoostClassifier"),
    Plain("BernoulliNB"),
    Plain("CalibratedClassifierCV"),
    Plain("DecisionTreeClassifier"),
    Plain("ExtraTreeClassifier"),
    Plain("ExtraTreesClassifier"),
    Plain("GaussianNB"),
    Plain("GradientBoostingClassifier"),
    Plain("KNeighborsClassifier"),
    Plain("LinearSVC"),
    Plain("LogisticRegression"),
    Plain("LogisticRegressionCV"),
    Plain("MLPClassifier"),
    Plain("MultinomialNB"),
    Plain("NearestCentroid"),
    Candidate("PassiveAggressiveClassifier", map["max_iter" := RealParam(0.001)]),
    Candidate("Perceptron", map["max_iter" := RealParam(0.001)]),
    Plain("RandomForestClassifier"),
    Plain("SVC")
  ]

  const RegressionCatalog: seq<Candidate> := [
    Plain("AdaBoostRegressor"),
    Plain("BaggingRegressor"),
    Plain("BayesianRidge"),
    Plain("DecisionTreeRegressor"),
    Plain("ExtraTreeRegressor"),
    Plain("ExtraTreesRegressor"),
    Plain("GradientBoostingRegressor"),
    Plain("HuberRegressor"),
    Plain("KNeighborsRegressor"),
    Plain("KernelRidge"),
    Plain("LinearRegression"),
    Plain("LinearSVR"),
    Plain("NuSVR"),
    Plain("OrthogonalMatchingPursuit"),
    Plain("OrthogonalMatchingPursuitCV"),
    Plain("PLSRegression"),
    Candidate("PassiveAggressiveRegressor", map["tol" := RealParam(0.001)]),
    Plain("RandomForestRegressor"),
    Plain("SVR")
  ]

  /** Each catalog lists 19 model types; only the passive-aggressive models
      and the perceptron get a keyword argument, set to `1e-3`. */
  lemma CatalogShapes(kind: EvaluatorKind)
    ensures |CatalogOf(kind)| == 19
    ensures forall i :: 0 <= i < 19 ==> |CatalogOf(kind)[i].params| <= 1
    ensures kind.ClassificationEvaluator? ==>
      CatalogOf(kind)[15].params == map["max_iter" := RealParam(0.001)] &&
      CatalogOf(kind)[16].params == map["max_iter" := RealParam(0.001)]
    ensures kind.RegressionEvaluator? ==> CatalogOf(kind)[16].params == map["tol" := RealParam(0.001)]
  {
  }

  function CatalogOf(kind: EvaluatorKind): seq<Candidate> {
    match kind
    case ClassificationEvaluator => ClassificationCatalog
    case RegressionEvaluator => RegressionCatalog
  }

  // ---------------------------------------------------------------------
  // Predicted order (`_models_in_predicted_order`)
  // ---------------------------------------------------------------------

  /** The sort key of a catalog entry can be computed: its meta-model exists
      and predicts without raising. */
  predicate KeyDefined(c: Candidate, models: map<string, MetaModel>, metaData: MetaData) {
    c.name in models && models[c.name](metaData).Predicted?
  }

  /** The error computing the sort key of `c` raises. */
  function KeyError(c: Candidate, models: map<string, MetaModel>, metaData: MetaData): (e: EvalError)
    requires !KeyDefined(c, models, metaData)
    ensures e.MissingMetaModel? <==> c.name !in models
    ensures e.MissingMetaModel? ==> e.name == c.name
    ensures e.PredictionError? ==> models[c.name](metaData) == PredictFailed(e.message)
  {
    if c.name !in models then MissingMetaModel(c.name)
    else PredictionError(models[c.name](metaData).message)
  }

  /** `sorted` computes the keys in catalog order before it compares any: the
      position of the first entry whose key raises, or the catalog's length
      when none does. */
  function FirstUndefinedKey(catalog: seq<Candidate>, models: map<string, MetaModel>, metaData: MetaData): (f: nat)
    ensures f <= |catalog|
    ensures forall j :: 0 <= j < f ==> KeyDefined(catalog[j], models, metaData)
    ensures f < |catalog| ==> !KeyDefined(catalog[f], models, metaData)
  {
    if catalog == [] || !KeyDefined(catalog[0], models, metaData) then 0
    else
      var rest := FirstUndefinedKey(catalog[1..], models, metaData);
      assert forall j :: 1 <= j < |catalog| ==> catalog[j] == catalog[1..][j - 1];
      1 + rest
  }

  /** The predicted score of an entry whose key can be computed. */
  function Predict(c: Candidate, models: map<string, MetaModel>, metaData: MetaData): (v: real)
    requires KeyDefined(c, models, metaData)
    ensures models[c.name](metaData) == Predicted(v)
  {
    models[c.name](metaData).value
  }

  /** The meta-models' predictions for every catalog entry. */
  function Predictions(catalog: seq<Candidate>, models: map<string, MetaModel>, metaData: MetaData): (p: seq<real>)
    requires forall i :: 0 <= i < |catalog| ==> KeyDefined(catalog[i], models, metaData)
    ensures |p| == |catalog|
    ensures forall i :: 0 <= i < |catalog| ==> p[i] == Predict(catalog[i], models, metaData)
  {
    seq(|catalog|, i requires 0 <= i < |catalog| => Predict(catalog[i], models, metaData))
  }

  /** The evaluation order: the catalog itself without a time limit; otherwise
      the catalog sorted by predicted score, highest first, which raises the
      error of the first entry whose meta-model is missing or fails. */
  function PredictedOrder(timeLimit: nat, catalog: seq<Candidate>, models: map<string, MetaModel>, metaData: MetaData)
    : (r: Result<seq<Candidate>, EvalError>)
    ensures timeLimit == 0 ==> r == Ok(catalog)
    ensures timeLimit > 0 ==>
      (r.Err? <==> exists i :: 0 <= i < |catalog| && !KeyDefined(catalog[i], models, metaData))
    ensures r.Err? ==>
      exists i :: 0 <= i < |catalog| && !KeyDefined(catalog[i], models, metaData)
        && (forall j :: 0 <= j < i ==> KeyDefined(catalog[j], models, metaData))
        && r.error == KeyError(catalog[i], models, metaData)
    ensures r.Ok? ==> multiset(r.value) == multiset(catalog)
  {
    if timeLimit > 0 then
      var f := FirstUndefinedKey(catalog, models, metaData);
      if f < |catalog| then Err(KeyError(catalog[f], models, metaData))
      else
        var keys := Predictions(catalog, models, metaData);
        Ranking.PickPermutes(catalog, keys);
        Ok(Ranking.Pick(catalog, Ranking.DescOrder(keys)))
    else
      Ok(catalog)
  }

  /** With a time limit and every meta-model present, the order puts the
      catalog entry at position `pos[i]` in slot `i`: the predictions never
      increase along the order, and entries with equal predictions keep their
      catalog order. */
  lemma PredictedOrderIsStableDescending(timeLimit: nat, catalog: seq<Candidate>, models: map<string, MetaModel>, metaData: MetaData)
    requires timeLimit > 0
    requires forall i :: 0 <= i < |catalog| ==> KeyDefined(catalog[i], models, metaData)
    ensures var r := PredictedOrder(timeLimit, catalog, models, metaData);
      var pos := Ranking.DescOrder(Predictions(catalog, models, metaData));
      && r.Ok? && |r.value| == |pos| == |catalog|
      && (forall i :: 0 <= i < |pos| ==> pos[i] < |catalog| && r.value[i] == catalog[pos[i]])
      && (forall i, j :: 0 <= i < j < |pos| ==>
            Predict(catalog[pos[i]], models, metaData) >= Predict(catalog[pos[j]], models, metaData))
      && (forall i, j :: 0 <= i < j < |pos| ==>
            (Predict(catalog[pos[i]], models, metaData) == Predict(catalog[pos[j]], models, metaData) ==> pos[i] < pos[j]))
  {
    var keys := Predictions(catalog, models, metaData);
    var pos := Ranking.DescOrder(keys);
    forall i, j | 0 <= i < j < |pos|
      ensures keys[pos[i]] >= keys[pos[j]]
      ensures keys[pos[i]] == keys[pos[j]] ==> pos[i] < pos[j]
    {
      assert Ranking.Before(keys, pos[i], pos[j]);
    }
  }

  // ---------------------------------------------------------------------
  // The evaluation run
  // ---------------------------------------------------------------------

  /** One row of the record table: model name, score, elapsed seconds. */
  datatype Record = Record(model: string, score: Num, time: Duration)

  /** What cross-validating one candidate gives: its mean score and the time it
      took, or the error it raised. */
  datatype CvResult = Scored(score: Num, time: Duration) | CvFailed(message: string)

  /** The calls the evaluator makes into code outside the model. */
  datatype Oracles = Oracles(
    crossValidate: Candidate -> CvResult,     // `_evaluate_model` on the data set
    sqrt: real -> real,                       // `np.sqrt` on a non-negative argument
    rank: (seq<Record>, real) -> seq<real>)   // `get_rls(models_quality, trade_rate)`

  /** The position of the first candidate whose cross-validation fails, or the
      length of the order when none fails. */
  function FirstFailure(ordered: seq<Candidate>, cv: Candidate -> CvResult): (f: nat)
    ensures f <= |ordered|
    ensures forall j :: 0 <= j < f ==> cv(ordered[j]).Scored?
    ensures f < |ordered| ==> cv(ordered[f]).CvFailed?
  {
    if ordered == [] || cv(ordered[0]).CvFailed? then 0
    else
      var rest := FirstFailure(ordered[1..], cv);
      assert forall j :: 1 <= j < |ordered| ==> ordered[j] == ordered[1..][j - 1];
      1 + rest
  }

  /** How the loop over the ordered candidates ends. */
  datatype Stop = RanToEnd | TimedOut | Failed(message: string)

  /** The number of candidates that complete: the alarm (when armed) fires
      while the candidate at position `alarmAfter` is being evaluated, unless a
      candidate has failed before it. */
  function CompletedCount(ordered: seq<Candidate>, cv: Candidate -> CvResult, armed: bool, alarmAfter: nat): (k: nat)
    ensures k <= |ordered|
    ensures forall j :: 0 <= j < k ==> cv(ordered[j]).Scored?
  {
    var f := FirstFailure(ordered, cv);
    if armed && alarmAfter <= f then alarmAfter else f
  }

  /** How the loop ends: it runs to the end exactly when every ordered
      candidate completes; a timeout happens only with an armed alarm and cuts
      the run where the alarm fires; a failure cuts it at the failing
      candidate and carries that candidate's error. */
  function StopOf(ordered: seq<Candidate>, cv: Candidate -> CvResult, armed: bool, alarmAfter: nat): (stop: Stop)
    ensures var k := CompletedCount(ordered, cv, armed, alarmAfter);
      && (stop.RanToEnd? <==> k == |ordered|)
      && (stop.TimedOut? ==> armed && k == alarmAfter < |ordered|)
      && (stop.Failed? ==> k < |ordered| && cv(ordered[k]) == CvFailed(stop.message))
  {
    var f := FirstFailure(ordered, cv);
    if armed && alarmAfter <= f && alarmAfter < |ordered| then TimedOut
    else if f < |ordered| then Failed(cv(ordered[f]).message)
    else RanToEnd
  }

  /** The row `_evaluate_model`'s result adds for a candidate. */
  function RecordOf(c: Candidate, r: CvResult): Record
    requires r.Scored?
  {
    Record(c.name, r.score, r.time)
  }

  /** The rows for candidates that were all scored, in order. */
  function NewRows(done: seq<Candidate>, cv: Candidate -> CvResult): (rows: seq<Record>)
    requires forall j :: 0 <= j < |done| ==> cv(done[j]).Scored?
    ensures |rows| == |done|
    ensures forall j :: 0 <= j < |done| ==> rows[j].model == done[j].name
  {
    if done == [] then []
    else NewRows(done[..|done| - 1], cv) + [RecordOf(done[|done| - 1], cv(done[|done| - 1]))]
  }

  /** Row `j` holds candidate `j`'s name, cross-validated mean score and
      duration. */
  lemma {:induction false} NewRowsHoldResults(done: seq<Candidate>, cv: Candidate -> CvResult)
    requires forall j :: 0 <= j < |done| ==> cv(done[j]).Scored?
    ensures forall j :: 0 <= j < |done| ==> NewRows(done, cv)[j] == RecordOf(done[j], cv(done[j]))
  {
    if done != [] {
      var init := done[..|done| - 1];
      NewRowsHoldResults(init, cv);
      assert forall j :: 0 <= j < |init| ==> init[j] == done[j];
    }
  }

  lemma NewRowsSnoc(ordered: seq<Candidate>, cv: Candidate -> CvResult, i: nat)
    requires i < |ordered| && forall j :: 0 <= j <= i ==> cv(ordered[j]).Scored?
    ensures NewRows(ordered[..i + 1], cv) == NewRows(ordered[..i], cv) + [RecordOf(ordered[i], cv(ordered[i]))]
  {
    assert ordered[..i + 1][..i] == ordered[..i];
  }

  /** The three exits of the evaluation loop, as `CompletedCount` and `StopOf`
      describe them. */
  lemma LoopExit(ordered: seq<Candidate>, cv: Candidate -> CvResult, armed: bool, alarmAfter: nat, i: nat, stop: Stop)
    requires i <= |ordered| && forall j :: 0 <= j < i ==> cv(ordered[j]).Scored?
    requires armed ==> i <= alarmAfter
    requires stop.RanToEnd? ==> i == |ordered|
    requires stop.TimedOut? ==> armed && i == alarmAfter && i < |ordered|
    requires stop.Failed? ==> i < |ordered| && cv(ordered[i]) == CvFailed(stop.message) && !(armed && i == alarmAfter)
    ensures i == CompletedCount(ordered, cv, armed, alarmAfter)
    ensures stop == StopOf(ordered, cv, armed, alarmAfter)
  {
    var f := FirstFailure(ordered, cv);
    assert i <= f;
    if stop.Failed? {
      assert f == i;
    }
  }

  // ---------------------------------------------------------------------
  // Score normalisation (`normalize_scores`)
  // ---------------------------------------------------------------------

  const Epsilon: real := 0.000001

  /** `Series.max()`: the largest value, skipping NaN; NaN when there is none. */
  function MaxSkipNaN(v: seq<Num>): (m: Num)
    ensures m.NaN? <==> forall i :: 0 <= i < |v| ==> v[i].NaN?
    ensures m.Real? ==> exists i :: 0 <= i < |v| && v[i] == m
    ensures m.Real? ==> forall i :: 0 <= i < |v| && v[i].Real? ==> v[i].r <= m.r
  {
    if v == [] then NaN
    else
      var rest := MaxSkipNaN(v[1..]);
      assert forall i :: 1 <= i < |v| ==> v[i] == v[1..][i - 1];
      if v[0].NaN? then rest
      else if rest.NaN? || rest.r < v[0].r then v[0]
      else rest
  }

  /** `1 - x / top + 1e-6` element-wise; NaN stays NaN and so does a division
      by zero. */
  function Scale(x: Num, top: Num): Num {
    if x.Real? && top.Real? && top.r != 0.0 then Real(1.0 - x.r / top.r + Epsilon) else NaN
  }

  /** The regression normaliser over root-mean-squared errors. */
  function NormalizeRmse(rmse: seq<Num>): (out: seq<Num>)
    ensures |out| == |rmse|
  {
    var top := MaxSkipNaN(rmse);
    seq(|rmse|, i requires 0 <= i < |rmse| => Scale(rmse[i], top))
  }

  /** With a positive largest error, a strictly smaller error gets a strictly
      larger normalised score, and conversely. */
  lemma NormalizeRmseReversesOrder(rmse: seq<Num>, i: nat, j: nat)
    requires i < |rmse| && j < |rmse| && rmse[i].Real? && rmse[j].Real?
    requires MaxSkipNaN(rmse).Real? && MaxSkipNaN(rmse).r > 0.0
    ensures var out := NormalizeRmse(rmse);
      && out[i].Real? && out[j].Real?
      && (rmse[i].r < rmse[j].r <==> out[i].r > out[j].r)
  {
    var top := MaxSkipNaN(rmse).r;
    var a, b := rmse[i].r, rmse[j].r;
    if a < b {
      DivideKeepsOrder(a, b, top);
    } else if b < a {
      DivideKeepsOrder(b, a, top);
    }
  }

  lemma DivideKeepsOrder(a: real, b: real, d: real)
    requires a < b && d > 0.0
    ensures a / d < b / d
  {
    assert b / d - a / d == (b - a) / d;
  }

  /** With a positive largest error, that error maps to `1e-6`, a zero error to
      `1 + 1e-6`, and every non-negative error into `[1e-6, 1 + 1e-6]`. */
  lemma NormalizeRmseRange(rmse: seq<Num>, i: nat)
    requires i < |rmse| && rmse[i].Real?
    requires MaxSkipNaN(rmse).Real? && MaxSkipNaN(rmse).r > 0.0
    ensures var out := NormalizeRmse(rmse);
      && out[i].Real?
      && (rmse[i] == MaxSkipNaN(rmse) ==> out[i] == Real(Epsilon))
      && (rmse[i].r == 0.0 ==> out[i] == Real(1.0 + Epsilon))
      && (0.0 <= rmse[i].r ==> Epsilon <= out[i].r <= 1.0 + Epsilon)
  {
    var top := MaxSkipNaN(rmse);
    assert NormalizeRmse(rmse)[i] == Scale(rmse[i], top);
    ScaleBounds(rmse[i].r, top.r);
  }

  lemma ScaleBounds(a: real, top: real)
    requires a <= top && top > 0.0
    ensures Scale(Real(a), Real(top)) == Real(1.0 - a / top + Epsilon)
    ensures a == top ==> 1.0 - a / top + Epsilon == Epsilon
    ensures a == 0.0 ==> 1.0 - a / top + Epsilon == 1.0 + Epsilon
    ensures 0.0 <= a ==> Epsilon <= 1.0 - a / top + Epsilon <= 1.0 + Epsilon
  {
    if 0.0 <= a {
      FractionInUnit(a, top);
    }
  }

  lemma FractionInUnit(a: real, d: real)
    requires 0.0 <= a <= d && d > 0.0
    ensures 0.0 <= a / d <= 1.0
    ensures a == d ==> a / d == 1.0
  {
    if a < d {
      DivideKeepsOrder(a, d, d);
    } else {
      assert a / d == d / d == 1.0;
    }
  }

  /** A NaN error stays NaN, and when no error is a positive real maximum
      (all NaN, or all zero) every normalised score is NaN. */
  lemma NormalizeRmseUndefined(rmse: seq<Num>, i: nat)
    requires i < |rmse|
    ensures var out, top := NormalizeRmse(rmse), MaxSkipNaN(rmse);
      && (rmse[i].NaN? ==> out[i].NaN?)
      && ((top.NaN? || top == Real(0.0)) ==> out[i].NaN?)
  {
  }

  /** `np.sqrt(-score)`: the error of a negated mean squared error; NaN for a
      positive score. */
  function RootOf(score: Num, sqrt: real -> real): Num {
    if score.Real? && score.r <= 0.0 then Real(sqrt(-score.r)) else NaN
  }

  /** The record table after `normalize_scores`: classification leaves it as it
      is; regression overwrites every score with the normalised root error,
      computed over the whole table. Names and times are never touched. */
  function NormalizedTable(kind: EvaluatorKind, rows: seq<Record>, sqrt: real -> real): (r: seq<Record>)
    ensures |r| == |rows|
    ensures forall i :: 0 <= i < |rows| ==> r[i].model == rows[i].model && r[i].time == rows[i].time
    ensures kind == ClassificationEvaluator ==> r == rows
    ensures kind == RegressionEvaluator ==>
      forall i :: 0 <= i < |rows| ==> r[i].score == NormalizeRmse(Roots(rows, sqrt))[i]
  {
    match kind
    case ClassificationEvaluator => rows
    case RegressionEvaluator =>
      var scores := NormalizeRmse(Roots(rows, sqrt));
      seq(|rows|, i requires 0 <= i < |rows| => rows[i].(score := scores[i]))
  }

  /** The root-mean-squared error of every row, read off its negated
      mean-squared-error score. */
  function Roots(rows: seq<Record>, sqrt: real -> real): (e: seq<Num>)
    ensures |e| == |rows|
    ensures forall i :: 0 <= i < |rows| ==> e[i] == RootOf(rows[i].score, sqrt)
  {
    seq(|rows|, i requires 0 <= i < |rows| => RootOf(rows[i].score, sqrt))
  }

  /** With a strictly increasing, non-negative square root and some row with a
      strictly negative (nonzero error) score, a regression row with a strictly
      higher raw score ends with a strictly higher normalised score, and
      conversely: the normalisation keeps the ranking of the cross-validation
      scores. */
  lemma NormalizedScoresFollowRawScores(rows: seq<Record>, sqrt: real -> real, i: nat, j: nat)
    requires forall a: real, b: real :: 0.0 <= a < b ==> sqrt(a) < sqrt(b)
    requires sqrt(0.0) >= 0.0
    requires SomeNonzeroError(rows)
    requires i < |rows| && j < |rows|
    requires rows[i].score.Real? && rows[i].score.r <= 0.0
    requires rows[j].score.Real? && rows[j].score.r <= 0.0
    ensures var t := NormalizedTable(RegressionEvaluator, rows, sqrt);
      && t[i].score.Real? && t[j].score.Real?
      && (rows[i].score.r > rows[j].score.r <==> t[i].score.r > t[j].score.r)
  {
    var e := Roots(rows, sqrt);
    LargestRootPositive(rows, sqrt);
    RootsFollowScores(rows, sqrt, i, j);
    NormalizeRmseReversesOrder(e, i, j);
  }

  /** A strictly increasing square root turns a strictly higher (less
      negative) score into a strictly smaller root error, and conversely. */
  lemma RootsFollowScores(rows: seq<Record>, sqrt: real -> real, i: nat, j: nat)
    requires forall a: real, b: real :: 0.0 <= a < b ==> sqrt(a) < sqrt(b)
    requires i < |rows| && j < |rows|
    requires rows[i].score.Real? && rows[i].score.r <= 0.0
    requires rows[j].score.Real? && rows[j].score.r <= 0.0
    ensures var e := Roots(rows, sqrt);
      && e[i].Real? && e[j].Real?
      && (rows[i].score.r > rows[j].score.r <==> e[i].r < e[j].r)
  {
    var a, b := -rows[i].score.r, -rows[j].score.r;
    if a < b {
      assert sqrt(a) < sqrt(b);
    } else if b < a {
      assert sqrt(b) < sqrt(a);
    }
  }

  /** Some row holds a real, strictly negative score: a nonzero error. */
  predicate SomeNonzeroError(rows: seq<Record>) {
    exists k :: 0 <= k < |rows| && rows[k].score.Real? && rows[k].score.r < 0.0
  }

  /** A row with a nonzero error makes the largest root error positive. */
  lemma LargestRootPositive(rows: seq<Record>, sqrt: real -> real)
    requires forall a: real, b: real :: 0.0 <= a < b ==> sqrt(a) < sqrt(b)
    requires sqrt(0.0) >= 0.0
    requires SomeNonzeroError(rows)
    ensures MaxSkipNaN(Roots(rows, sqrt)).Real? && MaxSkipNaN(Roots(rows, sqrt)).r > 0.0
  {
    var e := Roots(rows, sqrt);
    var k :| 0 <= k < |rows| && rows[k].score.Real? && rows[k].score.r < 0.0;
    assert sqrt(0.0) < sqrt(-rows[k].score.r);
    assert e[k].Real? && e[k].r > 0.0;
  }

  /** Normalising a regression table again turns every already-normalised
      (positive) score into NaN, since its negation has no real square root. */
  lemma RenormalisedRowsBecomeNaN(rows: seq<Record>, sqrt: real -> real, i: nat)
    requires i < |rows| && rows[i].score.Real? && rows[i].score.r > 0.0
    ensures NormalizedTable(RegressionEvaluator, rows, sqrt)[i].score.NaN?
  {
  }

  // ---------------------------------------------------------------------
  // Relative landmarks and the best model
  // ---------------------------------------------------------------------

  /** Python's `zip`: pairs equal positions and stops at the shorter input. */
  function Zip<A, B>(a: seq<A>, b: seq<B>): (z: seq<(A, B)>)
    ensures |z| == Min(|a|, |b|)
    ensures forall i :: 0 <= i < |z| ==> z[i] == (a[i], b[i])
  {
    if a == [] || b == [] then []
    else
      var rest := Zip(a[1..], b[1..]);
      assert forall i :: 1 <= i < |a| ==> a[i] == a[1..][i - 1];
      assert forall i :: 1 <= i < |b| ==> b[i] == b[1..][i - 1];
      [(a[0], b[0])] + rest
  }

  function Ranks(rl: seq<(Candidate, real)>): (r: seq<real>)
    ensures |r| == |rl|
  {
    seq(|rl|, i requires 0 <= i < |rl| => rl[i].1)
  }

  /** `sorted(relative_landmarks, key=rank, reverse=True)[0]`; an empty list
      makes the indexing fail. */
  function BestOf(rl: seq<(Candidate, real)>): (r: Result<Candidate, EvalError>)
    ensures r.Err? <==> rl == []
  {
    if rl == [] then Err(NothingEvaluated)
    else Ok(rl[Ranking.DescOrder(Ranks(rl))[0]].0)
  }

  /** The best model is the candidate of an entry with the largest rank, and no
      earlier entry has that rank: ties go to the earliest entry. */
  lemma BestIsEarliestMaximum(rl: seq<(Candidate, real)>)
    requires rl != []
    ensures var b := Ranking.DescOrder(Ranks(rl))[0];
      && b < |rl| && BestOf(rl) == Ok(rl[b].0)
      && (forall j :: 0 <= j < |rl| ==> rl[j].1 <= rl[b].1)
      && (forall j :: 0 <= j < b ==> rl[j].1 < rl[b].1)
  {
    var ranks := Ranks(rl);
    Ranking.FirstIsEarliestMax(ranks);
    var b := Ranking.DescOrder(ranks)[0];
    assert forall j :: 0 <= j < |rl| ==> ranks[j] == rl[j].1;
  }

  // ---------------------------------------------------------------------
  // Properties of whole runs
  // ---------------------------------------------------------------------

  /** Without a time limit the order is the catalog, no alarm can cut the run,
      and when no candidate fails every catalog entry gets a row, in catalog
      order. */
  lemma UnlimitedRunCoversCatalog(catalog: seq<Candidate>, models: map<string, MetaModel>, metaData: MetaData,
                                  cv: Candidate -> CvResult, alarmAfter: nat)
    requires forall i :: 0 <= i < |catalog| ==> cv(catalog[i]).Scored?
    ensures PredictedOrder(0, catalog, models, metaData) == Ok(catalog)
    ensures CompletedCount(catalog, cv, false, alarmAfter) == |catalog|
    ensures StopOf(catalog, cv, false, alarmAfter) == RanToEnd
    ensures var rows := NewRows(catalog, cv);
      forall i :: 0 <= i < |catalog| ==> rows[i].model == catalog[i].name
  {
  }

  /** One run keeps every row already in the table (model and time; a
      regression score is re-normalised) and appends one row for each of the
      first `k` ordered candidates, in order, with `k` at most the number of
      ordered candidates: a timeout or a failure only cuts the tail. */
  lemma RunAppendsOrderedPrefix(kind: EvaluatorKind, before: seq<Record>, ordered: seq<Candidate>,
                                cv: Candidate -> CvResult, armed: bool, alarmAfter: nat, sqrt: real -> real)
    ensures var k := CompletedCount(ordered, cv, armed, alarmAfter);
      var table := NormalizedTable(kind, before + NewRows(ordered[..k], cv), sqrt);
      && 0 <= k <= |ordered|
      && |table| == |before| + k
      && (forall j :: 0 <= j < |before| ==> table[j].model == before[j].model && table[j].time == before[j].time)
      && (forall j :: 0 <= j < k ==> table[|before| + j].model == ordered[j].name)
  {
    var k := CompletedCount(ordered, cv, armed, alarmAfter);
    var rows := NewRows(ordered[..k], cv);
    var table := NormalizedTable(kind, before + rows, sqrt);
    forall j | 0 <= j < k
      ensures table[|before| + j].model == ordered[j].name
    {
      assert (before + rows)[|before| + j] == rows[j];
    }
  }

  /** An alarm that fires before the first candidate completes leaves no row:
      a time-limited run can record nothing. */
  lemma EarlyAlarmRecordsNothing(ordered: seq<Candidate>, cv: Candidate -> CvResult)
    requires ordered != []
    ensures CompletedCount(ordered, cv, true, 0) == 0
    ensures StopOf(ordered, cv, true, 0) == TimedOut
  {
  }

  /** On a first run (empty table) whose ranking gives one rank per row, the
      relative landmarks pair exactly the `k` completed candidates with the
      ranks of their own rows, and the best model is one of them; with no
      completed candidate there is no best model. */
  lemma FirstRunPairsEvaluatedCandidates(kind: EvaluatorKind, ordered: seq<Candidate>, oracles: Oracles,
                                         armed: bool, alarmAfter: nat, tradeRate: real)
    requires var k := CompletedCount(ordered, oracles.crossValidate, armed, alarmAfter);
      var rows := NormalizedTable(kind, NewRows(ordered[..k], oracles.crossValidate), oracles.sqrt);
      |oracles.rank(rows, tradeRate)| == |rows|
    ensures var k := CompletedCount(ordered, oracles.crossValidate, armed, alarmAfter);
      var rows := NormalizedTable(kind, NewRows(ordered[..k], oracles.crossValidate), oracles.sqrt);
      var rl := Zip(ordered, oracles.rank(rows, tradeRate));
      && |rl| == k
      && (forall i :: 0 <= i < k ==> rl[i].0 == ordered[i] && rows[i].model == ordered[i].name)
      && (BestOf(rl).Err? <==> k == 0)
      && (BestOf(rl).Ok? ==> exists i :: 0 <= i < k && BestOf(rl).value == ordered[i])
  {
    var cv := oracles.crossValidate;
    var k := CompletedCount(ordered, cv, armed, alarmAfter);
    var rows := NormalizedTable(kind, NewRows(ordered[..k], cv), oracles.sqrt);
    var rl := Zip(ordered, oracles.rank(rows, tradeRate));
    if rl != [] {
      BestIsEarliestMaximum(rl);
    }
  }

  // ---------------------------------------------------------------------
  // The process alarm and the evaluator object
  // ---------------------------------------------------------------------

  /** The process-wide `SIGALRM` timer: whether an alarm is still scheduled. */
  class Alarm {
    var pending: bool

    constructor ()
      ensures !pending
    {
      pending := false;
    }

    /** `signal.alarm(seconds)`: schedules an alarm, or cancels it with 0. */
    method Set(seconds: nat)
      modifies this
      ensures pending == (seconds > 0)
    {
      pending := seconds > 0;
    }
  }

  /** A valid evaluator without a time limit evaluates its kind's catalog as
      it stands; with one, it evaluates a permutation of that catalog or
      raises the error of a catalog entry whose sort key fails. */
  lemma ValidEvaluatorOrder(e: Evaluator, metaData: MetaData)
    requires e.Valid()
    ensures e.timeLimit == 0 ==> e.Order(metaData) == Ok(CatalogOf(e.kind))
    ensures e.Order(metaData).Ok? ==> multiset(e.Order(metaData).value) == multiset(CatalogOf(e.kind))
    ensures e.timeLimit > 0 && e.Order(metaData).Err? ==>
      exists i :: 0 <= i < |CatalogOf(e.kind)| && !KeyDefined(CatalogOf(e.kind)[i], e.Models(), metaData)
  {
  }

  /** What `evaluate_models` does for its caller: return, or raise. */
  datatype Status = Returned | Raised(error: EvalError)

  class Evaluator {
    const kind: EvaluatorKind
    const catalog: seq<Candidate>
    const timeLimit: nat
    const tradeRate: real
    const metaModels: Option<map<string, MetaModel>>
    var records: seq<Record>
    var relativeLandmarks: Option<seq<(Candidate, real)>>

    /** The catalog matches the evaluator's kind and the meta-models are there
        exactly when a time limit is set. It mentions only `const` fields, so
        the constructor establishes it and no method can break it. */
    ghost predicate Valid() {
      catalog == CatalogOf(kind) && (metaModels.Some? <==> timeLimit != 0)
    }

    /** The meta-models are loaded only when there is a time limit. */
    constructor (kind: EvaluatorKind, timeLimit: nat, tradeRate: real, store: map<string, MetaModel>)
      ensures Valid()
      ensures this.kind == kind && this.timeLimit == timeLimit && this.tradeRate == tradeRate
      ensures metaModels == if timeLimit != 0 then Some(store) else None
      ensures records == [] && relativeLandmarks == None
    {
      this.kind := kind;
      this.catalog := CatalogOf(kind);
      this.timeLimit := timeLimit;
      this.tradeRate := tradeRate;
      this.metaModels := if timeLimit != 0 then Some(store) else None;
      records := [];
      relativeLandmarks := None;
    }

    function Models(): map<string, MetaModel> {
      if metaModels.Some? then metaModels.value else map[]
    }

    /** `_models_in_predicted_order`. */
    function Order(metaData: MetaData): Result<seq<Candidate>, EvalError> {
      PredictedOrder(timeLimit, catalog, Models(), metaData)
    }

    /** `normalize_scores`: overwrites the score column. */
    method NormalizeScores(sqrt: real -> real)
      modifies this
      ensures records == NormalizedTable(kind, old(records), sqrt)
      ensures relativeLandmarks == old(relativeLandmarks)
    {
      records := NormalizedTable(kind, records, sqrt);
    }

    /** `evaluate_models`. A missing or raising meta-model fails before anything
        changes.
        Otherwise the alarm is armed, the completed candidates' rows are
        appended to the table in order, and then, however the loop ended, the
        whole table is normalised and ranked and the ordered candidates are
        zipped with the ranks. A timeout is absorbed, a failing candidate's
        error propagates, and the alarm stays scheduled only in that case. */
    method EvaluateModels(metaData: MetaData, oracles: Oracles, alarmAfter: nat, alarm: Alarm) returns (status: Status)
      modifies this, alarm
      ensures Order(metaData).Err? ==>
        && status == Raised(Order(metaData).error)
        && records == old(records) && relativeLandmarks == old(relativeLandmarks)
        && alarm.pending == old(alarm.pending)
      ensures Order(metaData).Ok? ==>
        var ordered, cv := Order(metaData).value, oracles.crossValidate;
        var armed := timeLimit > 0;
        var k := CompletedCount(ordered, cv, armed, alarmAfter);
        var stop := StopOf(ordered, cv, armed, alarmAfter);
        && records == NormalizedTable(kind, old(records) + NewRows(ordered[..k], cv), oracles.sqrt)
        && relativeLandmarks == Some(Zip(ordered, oracles.rank(records, tradeRate)))
        && alarm.pending == (armed && stop.Failed?)
        && status == (if stop.Failed? then Raised(CvError(stop.message)) else Returned)
    {
      var order := Order(metaData);
      if order.Err? {
        return Raised(order.error);
      }
      var ordered := order.value;
      alarm.Set(timeLimit);
      var stop := EvaluateInOrder(ordered, oracles.crossValidate, alarmAfter, alarm);
      if stop.RanToEnd? {
        alarm.Set(0);
      }
      NormalizeScores(oracles.sqrt);
      var ranks := oracles.rank(records, tradeRate);
      relativeLandmarks := Some(Zip(ordered, ranks));
      status := if stop.Failed? then Raised(CvError(stop.message)) else Returned;
    }

    /** The loop of `evaluate_models`: cross-validates the ordered candidates
        one by one and appends each result to the table, until the list ends,
        the armed alarm fires (which clears it) or a candidate fails. */
    method EvaluateInOrder(ordered: seq<Candidate>, cv: Candidate -> CvResult, alarmAfter: nat, alarm: Alarm)
      returns (stop: Stop)
      requires alarm.pending == (timeLimit > 0)
      modifies this, alarm
      ensures var k := CompletedCount(ordered, cv, timeLimit > 0, alarmAfter);
        records == old(records) + NewRows(ordered[..k], cv)
      ensures stop == StopOf(ordered, cv, timeLimit > 0, alarmAfter)
      ensures relativeLandmarks == old(relativeLandmarks)
      ensures alarm.pending == (timeLimit > 0 && !stop.TimedOut?)
    {
      stop := RanToEnd;
      var i := 0;
      assert ordered[..0] == [];
      while i < |ordered|
        invariant 0 <= i <= |ordered|
        invariant forall j :: 0 <= j < i ==> cv(ordered[j]).Scored?
        invariant timeLimit > 0 ==> i <= alarmAfter
        invariant records == old(records) + NewRows(ordered[..i], cv)
        invariant relativeLandmarks == old(relativeLandmarks)
        invariant alarm.pending == (timeLimit > 0)
        invariant stop == RanToEnd
      {
        if timeLimit > 0 && i == alarmAfter {
          // the alarm goes off while this candidate is evaluated
          alarm.pending := false;
          stop := TimedOut;
          break;
        }
        var result := cv(ordered[i]);
        if result.CvFailed? {
          stop := Failed(result.message);
          break;
        }
        NewRowsSnoc(ordered, cv, i);
        records := records + [RecordOf(ordered[i], result)];
        i := i + 1;
      }
      LoopExit(ordered, cv, timeLimit > 0, alarmAfter, i, stop);
    }

    /** `get_best_model`: fails before any evaluation and when no candidate
        was evaluated; otherwise the candidate of the first entry with the
        largest relative landmark. */
    function GetBestModel(): (r: Result<Candidate, EvalError>)
      reads this
      ensures relativeLandmarks.None? ==> r == Err(NotEvaluated)
      ensures relativeLandmarks.Some? ==> r == BestOf(relativeLandmarks.value)
      ensures relativeLandmarks.Some? ==>
        (r.Err? <==> relativeLandmarks.value == []) &&
        (r.Err? ==> r.error == NothingEvaluated)
      ensures relativeLandmarks.Some? && r.Ok? ==>
        var rl := relativeLandmarks.value;
        exists b :: 0 <= b < |rl| && r.value == rl[b].0
          && (forall j :: 0 <= j < |rl| ==> rl[j].1 <= rl[b].1)
          && (forall j :: 0 <= j < b ==> rl[j].1 < rl[b].1)
    {
      match relativeLandmarks
      case None => Err(NotEvaluated)
      case Some(rl) =>
        if rl == [] then BestOf(rl)
        else
          BestIsEarliestMaximum(rl);
          BestOf(rl)
    }
  }

  /** `get_evaluator`. */
  method GetEvaluator(problem: ProblemType, timeLimit: nat, tradeRate: real, store: map<string, MetaModel>)
    returns (r: Result<Evaluator, EvalError>)
    ensures problem.OtherProblem? <==> r.Err?
    ensures r.Err? ==> r.error == UnsupportedProblem
    ensures r.Ok? ==> fresh(r.value) && r.value.Valid() && r.value.records == [] && r.value.relativeLandmarks == None
    ensures r.Ok? ==> r.value.timeLimit == timeLimit && r.value.tradeRate == tradeRate
    ensures problem.Classification? ==> r.Ok? && r.value.kind == ClassificationEvaluator
    ensures problem.Regression? ==> r.Ok? && r.value.kind == RegressionEvaluator
  {
    match problem
    case Classification =>
      var e := new Evaluator(ClassificationEvaluator, timeLimit, tradeRate, store);
      r := Ok(e);
    case Regression =>
      var e := new Evaluator(RegressionEvaluator, timeLimit, tradeRate, store);
      r := Ok(e);
    case OtherProblem =>
      r := Err(UnsupportedProblem);
  }
}

=== FILE: ranking.dfy ===
/** Python's `sorted(xs, key=k, reverse=True)` over positions: a stable sort that
    puts larger keys first and keeps equal keys in their original order. Both the
    predicted evaluation order and the choice of the best model use it. */
module Ranking {
  import opened Common

  /** Position `a` precedes position `b` in the descending stable order of `keys`. */
  predicate Before(keys: seq<real>, a: nat, b: nat)
    requires a < |keys| && b < |keys|
  {
    keys[a] > keys[b] || (keys[a] == keys[b] && a < b)
  }

  predicate InRange(s: seq<nat>, n: nat) {
    forall i :: 0 <= i < |s| ==> s[i] < n
  }

  /** Every earlier entry of `s` precedes every later one. */
  predicate Ordered(keys: seq<real>, s: seq<nat>)
    requires InRange(s, |keys|)
  {
    forall i, j :: 0 <= i < j < |s| ==> Before(keys, s[i], s[j])
  }

  /** Inserts position `x` into an ordered sequence of other positions. */
  function Insert(keys: seq<real>, x: nat, s: seq<nat>): (r: seq<nat>)
    requires x < |keys| && InRange(s, |keys|) && Ordered(keys, s) && x !in s
    ensures |r| == |s| + 1
    ensures forall k :: 0 <= k < |r| ==> r[k] == x || r[k] in s
    ensures InRange(r, |keys|) && Ordered(keys, r)
    ensures multiset(r) == multiset(s) + multiset{x}
  {
    if s == [] then [x]
    else if Before(keys, x, s[0]) then [x] + s
    else
      var t := Insert(keys, x, s[1..]);
      assert s == [s[0]] + s[1..];
      assert forall k :: 0 <= k < |t| ==> Before(keys, s[0], t[k]);
      [s[0]] + t
  }

  /** The first `n` positions of `keys`, in descending stable order. */
  function OrderPrefix(keys: seq<real>, n: nat): (r: seq<nat>)
    requires n <= |keys|
    ensures |r| == n && InRange(r, n) && InRange(r, |keys|) && Ordered(keys, r)
    ensures multiset(r) == multiset(Indices(n))
  {
    if n == 0 then []
    else
      var prev := OrderPrefix(keys, n - 1);
      assert Indices(n) == Indices(n - 1) + [n - 1];
      Insert(keys, n - 1, prev)
  }

  /** `sorted(range(len(keys)), key=keys.__getitem__, reverse=True)`. */
  function DescOrder(keys: seq<real>): (r: seq<nat>)
    ensures |r| == |keys| && InRange(r, |keys|) && Ordered(keys, r)
    ensures multiset(r) == multiset(Indices(|keys|))
  {
    OrderPrefix(keys, |keys|)
  }

  /** The items at the given positions, in that order. */
  function Pick<T>(items: seq<T>, order: seq<nat>): (r: seq<T>)
    requires InRange(order, |items|)
  {
    seq(|order|, i requires 0 <= i < |order| => items[order[i]])
  }

  /** Every position of `keys` occurs in `DescOrder(keys)`. */
  lemma EveryPositionOccurs(keys: seq<real>, j: nat)
    requires j < |keys|
    ensures j in DescOrder(keys)
  {
    var r := DescOrder(keys);
    assert Indices(|keys|)[j] == j;
    assert j in multiset(Indices(|keys|));
    assert j in multiset(r);
  }

  lemma PickCons<T>(items: seq<T>, a: nat, t: seq<nat>)
    requires a < |items| && InRange(t, |items|)
    ensures InRange([a] + t, |items|)
    ensures Pick(items, [a] + t) == [items[a]] + Pick(items, t)
  {
  }

  lemma {:induction false} PickInsert<T>(items: seq<T>, keys: seq<real>, x: nat, s: seq<nat>)
    requires |items| == |keys|
    requires x < |keys| && InRange(s, |keys|) && Ordered(keys, s) && x !in s
    ensures multiset(Pick(items, Insert(keys, x, s))) == multiset(Pick(items, s)) + multiset{items[x]}
  {
    if s == [] {
      assert Pick(items, [x]) == [items[x]];
    } else if Before(keys, x, s[0]) {
      PickCons(items, x, s);
    } else {
      var t := Insert(keys, x, s[1..]);
      PickInsert(items, keys, x, s[1..]);
      PickCons(items, s[0], t);
      PickCons(items, s[0], s[1..]);
      assert [s[0]] + s[1..] == s;
    }
  }

  lemma {:induction false} PickOrderPrefix<T>(items: seq<T>, keys: seq<real>, n: nat)
    requires |items| == |keys| && n <= |keys|
    ensures multiset(Pick(items, OrderPrefix(keys, n))) == multiset(items[..n])
  {
    if n > 0 {
      var prev := OrderPrefix(keys, n - 1);
      assert n - 1 !in prev by {
        assert InRange(prev, n - 1);
      }
      PickOrderPrefix(items, keys, n - 1);
      PickInsert(items, keys, n - 1, prev);
      PrefixSnoc(items, n);
    }
  }

  lemma PrefixSnoc<T>(items: seq<T>, n: nat)
    requires 0 < n <= |items|
    ensures multiset(items[..n]) == multiset(items[..n - 1]) + multiset{items[n - 1]}
  {
    assert items[..n] == items[..n - 1] + [items[n - 1]];
  }

  /** Reordering by `DescOrder` is a permutation of the items. */
  lemma PickPermutes<T>(items: seq<T>, keys: seq<real>)
    requires |items| == |keys|
    ensures multiset(Pick(items, DescOrder(keys))) == multiset(items)
  {
    PickOrderPrefix(items, keys, |keys|);
    assert items[..|keys|] == items;
  }

  /** The first position of the descending stable order holds a maximal key, and
      no earlier position holds that maximum: an arg-max with the earliest tie. */
  lemma FirstIsEarliestMax(keys: seq<real>)
    requires |keys| > 0
    ensures var b := DescOrder(keys)[0];
      && (forall j :: 0 <= j < |keys| ==> keys[j] <= keys[b])
      && (forall j :: 0 <= j < b ==> keys[j] < keys[b])
  {
    var r := DescOrder(keys);
    forall j | 0 <= j < |keys|
      ensures keys[j] <= keys[r[0]] && (j < r[0] ==> keys[j] < keys[r[0]])
    {
      EveryPositionOccurs(keys, j);
      var p :| 0 <= p < |r| && r[p] == j;
      if p > 0 {
        assert Before(keys, r[0], r[p]);
      }
    }
  }
}
